=== FILE: README.md ===
# SmartServe domain model in Dafny

SmartServe is a Django application for restaurant bookings: restaurants
employ users, own tables (which can be merged into container tables), tables
carry seats, a booking reserves seats through seat-bookings, and orders attach
menu items to seat-bookings. Its correctness lives in the models' validation
layer: every `save` runs `full_clean` first, each model's `clean()` adds
domain rules, and a signal handler keeps employee names distinct per
restaurant.

This project models that layer as pure functions over an immutable store:

- `Models.Store` holds one map from id to record per model, plus two sets of
  pairs for the many-to-many relations: `employs`, as (restaurant, user), and
  `availability`, as (menu item, restaurant).
- `Models.WellFormed` is the store invariant. Every foreign key resolves, and
  the container relation between tables is a forest. The forest property is
  witnessed by a rank that strictly decreases towards the container.
- Validation errors are `Errors.Violation(field, code, rule)`. They carry the
  error code Django reports and the broken rule in place of the message
  text. A `ValidationError` raised with a `{field: message}` dict drops the
  `code` argument passed with it, and the booking check constraint has no
  violation code. Those errors carry `Errors.NoCode`.
  `Errors.NonField` (`"__all__"`) is the key for non-field errors.
- Each `SaveX` function returns `Ok(newStore)` or `Failed(errors)`. It runs
  `XFullClean` in Django's order:
  1. field validation;
  2. the model's `clean()`;
  3. the uniqueness rules, which skip every field that already has an error.
- Each `ValidX` predicate states declaratively what a valid record is.
  `XFullClean` reports nothing exactly when `ValidX` holds.

Modules:

| module | file | models |
|---|---|---|
| `Errors` | errors.dfy | error codes, results, fields in error |
| `Models` | models.dfy | records, store, invariants, ids |
| `Validators` | validators.dfy | name pattern, employee id, integer and name-length validators |
| `Tables` | tables.dfy | `true_number`, `Table.clean`, effective seats |
| `Bookings` | bookings.dfy | `Booking.restaurant`, `SeatBooking.clean`, `Order.clean` |
| `Persistence` | persistence.dfy | `full_clean` and `save` for each model |
| `BookingCreation` | booking_creation.dfy | `Table.create_booking` |
| `BaseModel` | base_model.dfy | `CustomBaseModel.__init__`, `update`, `get_proxy_field_names` |
| `Signals` | signals.dfy | `user_added_to_restaurant` |
| `TestStrings` | test_strings.dfy | the test helper `duplicate_string_to_size` |

Parameters stand in for what the model cannot compute:

- the value of `generate_employee_id` is the parameter `freshId`, required to
  be six ASCII digits;
- the order in which the database returns rows is an enumerating sequence
  (`seatOrder` or `order`), and every result is proved for any such order.

Django behaviour that the code relies on is modelled as follows:

- A blank-able `CharField` with an empty value skips its validators.
- `CharField` validators run in the order: pattern, then minimum length, then
  maximum length.
- A `MinValueValidator` of the field's own replaces the built-in lower bound
  of a `PositiveIntegerField`.
- The project is generated with Django 4.2 (core/settings.py:4). That
  version bounds a `PositiveIntegerField` at 2^31 − 1 on every backend,
  SQLite included.
- A field with `choices` reports an invalid choice and stops there.
- A dangling foreign key gives code `invalid`.
- A two-field `UniqueConstraint` gives a non-field error with code
  `unique_together`.
- `first()` on an unordered query takes the lowest id.
- Auto-increment ids are one past the largest id in use.

## Model

| member | source | states |
|---|---|---|
| Validators.ScanNamePattern | smartserve/models/__init__.py:116 | An independent one-pass scan, with one bit of state, accepts exactly the strings of the clause-by-clause reading of the name regex: letters, space, `'` and `-`; no separator at either end; no two separators in a row. |
| Validators.NameErrors | smartserve/models/__init__.py:113-117 | A restaurant or menu-item name gets no error exactly when it matches the pattern and has 2 to 100 characters. Every error is on the name field, and a name over 100 characters always gets the max-length error. |
| Validators.EmployeeIdErrors | smartserve/models/__init__.py:25-39 | An empty employee id skips validation, because the field is blank-able. Any other id passes exactly when it is six digits, and every error is on `employee_id`. |
| Validators.PersonNameErrors | smartserve/models/__init__.py:40-41 | A first or last name is accepted exactly when it has 1 to 75 characters. |
| Validators.PositiveIntegerErrors | smartserve/models/__init__.py:137-142 | A positive-integer field with its own minimum is accepted exactly when the value lies between that minimum and 2^31 − 1. |
| Tables.Ancestors | smartserve/models/__init__.py:162-167 | The chain of containers above a table lies in the store and has strictly smaller rank, so following containers terminates. |
| Tables.TableClean | smartserve/models/__init__.py:225-242 | `Table.clean` reports at most one error, always on `container_table`. It has no code, because the dict-form raise drops the `invalid` passed with it. |
| Tables.TableCleanRejects | smartserve/models/__init__.py:225-242 | `Table.clean` rejects exactly three kinds of container: the table itself, a table at another restaurant, or a transitive sub-table of the table. |
| Tables.CheckMeansNotSubTable | smartserve/models/__init__.py:233-241 | For a saved table, the recursive check returns false exactly when the proposed container is a strict transitive sub-table. |
| Tables.ChildAncestors | smartserve/models/__init__.py:152-160 | A sub-table's ancestors are its container plus the container's ancestors. A table is never its own ancestor. |
| Tables.AncestorsTransitive | smartserve/models/__init__.py:152-160 | An ancestor of an ancestor is an ancestor. |
| Tables.PathChild | smartserve/models/__init__.py:233-239 | Every strict sub-table of t lies below some direct sub-table of t. This is the step the recursive check takes. |
| Tables.AcceptedContainerKeepsForest | smartserve/models/__init__.py:225-242 | Any container assignment that `Table.clean` accepts keeps the container relation acyclic, for new tables and saved tables alike. |
| Tables.TrueNumberIsRootNumber | smartserve/models/__init__.py:162-167 | `true_number` is the number of the unique root above a table. A table with no container gives its own number. |
| Tables.SubTableSeatsAreSubtreeSeats | smartserve/models/__init__.py:194-204 | The recursive union over sub-tables collects exactly the seats of the table and of all its transitive sub-tables. |
| Tables.EffectiveSeatsCharacterised | smartserve/models/__init__.py:187-192 | `Table.seats` of a root table is every seat in its subtree. Of a sub-table it is only the table's own seats. |
| Bookings.OverlapIsSharedInstant | smartserve/models/__init__.py:391 | For proper windows, the overlap filter holds exactly when the two half-open windows share an instant. |
| Bookings.TableConflictIsSharedInstant | smartserve/models/__init__.py:391 | For proper windows, the overlap query finds a row exactly when a seat-booking of another booking on the same direct table shares an instant with this booking. |
| Bookings.TouchingWindowsDoNotClash | smartserve/models/__init__.py:391 | Any two windows that only touch (one ends where the other starts) do not clash. A proper window starting inside another always does. |
| Bookings.BookingTables | smartserve/models/__init__.py:326-327 | The tables of a booking are stored tables. |
| Bookings.BookingRestaurant | smartserve/models/__init__.py:300-305 | A booking has no restaurant exactly when nothing is booked under it. Otherwise its restaurant is that of one of its seats. |
| Bookings.SeatBookingCleanAsWritten | smartserve/models/__init__.py:387-392 | `SeatBooking.clean` as written reports at most one error. |
| Bookings.AsWrittenRestaurantRule | smartserve/models/__init__.py:388-389 | As written, the restaurant rule fires exactly when seat and booking exist, the booking has a derived restaurant, it already holds two or more seat-bookings, and the seat stands at another restaurant. With fewer than two seat-bookings it never fires. |
| Bookings.AsWrittenOverlapRuleRejectsSharedInstants | smartserve/models/__init__.py:391-392 | `SeatBooking.clean` as written reports the code-less overlap error on `seat` exactly when the written restaurant rule passes and another booking on the same direct table shares an instant with this one. |
| Bookings.AsWrittenAdmitsMixedBooking | smartserve/models/__init__.py:388-389 | A concrete store where the rule as written accepts a second seat at another restaurant, leaving the booking split across two restaurants. The corrected rule rejects it. |
| Bookings.FindingStore | smartserve/models/__init__.py:349-392 | The store of the counterexample is consistent: every seat-booking, seat and table it holds refers to stored rows. |
| Bookings.SeatBookingClean | smartserve/models/__init__.py:387-392 | The corrected `SeatBooking.clean` reports at most one error. |
| Bookings.IntendedRuleUsesDerivedRestaurant | smartserve/models/__init__.py:300-305 | While bookings are single-restaurant, the corrected rule rejects exactly a seat away from the booking's derived restaurant. |
| Bookings.OverlapRuleRejectsSharedInstants | smartserve/models/__init__.py:391-392 | The overlap rule reports on `seat`, with no code (the dict-form raise drops `unique`), exactly when the restaurant rule passes and a seat-booking of another booking on the same direct table shares an instant with this booking. |
| Bookings.OrderClean | smartserve/models/__init__.py:471-473 | `Order.clean` reports at most one error. |
| Bookings.OrderAvailability | smartserve/models/__init__.py:471-473 | An order is rejected on `menu_item` exactly when its item is not available at its seat's restaurant. Making the item available there admits the order. Availability elsewhere changes nothing. |
| Persistence.SaveRestaurant | smartserve/models/utils.py:48-61 | A restaurant is stored exactly when its name is valid. Failures are name errors and change nothing. |
| Persistence.TableFieldErrors | smartserve/models/__init__.py:136-160 | The field and `clean()` errors of a table are empty exactly when its own fields and container are valid. They never include the uniqueness error. When `number` or `restaurant` carries no error, that field is valid. |
| Persistence.TableFullClean | smartserve/models/__init__.py:136-176 | `Table.full_clean` reports nothing exactly when all of these hold: the number is 1 to 2^31 − 1; the restaurant exists; the container exists, is not the table, is at the same restaurant and is not a sub-table; and no other table of the restaurant has the number. The uniqueness error appears only when number and restaurant are themselves valid. |
| Persistence.SaveTable | smartserve/models/utils.py:48-61 | A table is stored exactly when `full_clean` passes. Otherwise the errors are `full_clean`'s. An accepted table keeps the store well formed and table numbers unique per restaurant. |
| Persistence.SeatFullClean | smartserve/models/__init__.py:255-279 | `Seat.full_clean` reports nothing exactly when all of these hold: the table exists; the index is 0 to 2^31 − 1; and no other seat of the table has the index. |
| Persistence.SaveSeat | smartserve/models/utils.py:48-61 | A seat is stored exactly when it is valid. It keeps the store well formed and seat indexes unique per table. |
| Persistence.BookingFullClean | smartserve/models/__init__.py:309-315 | A booking is rejected, with a non-field error, exactly when its end is not after its start. |
| Persistence.SaveBooking | smartserve/models/utils.py:48-61 | A booking is stored exactly when it ends after it starts. A new booking cannot break the no-double-booking or one-restaurant invariants. |
| Persistence.SeatBookingFieldErrors | smartserve/models/__init__.py:349-392 | The field and `clean()` errors of a seat-booking are empty exactly when seat and booking exist and neither corrected `clean()` rule fires. They never include the pair-uniqueness error. The overlap error is always on `seat`. |
| Persistence.SeatBookingFullClean | smartserve/models/__init__.py:349-392 | `SeatBooking.full_clean`, with the corrected restaurant rule, reports nothing exactly when all of these hold: the seat and booking exist; no restaurant mix; no overlapping booking on the table; and no other seat-booking with the same pair. An overlap error on `seat` suppresses the pair-uniqueness error. |
| Persistence.SaveSeatBooking | smartserve/models/utils.py:48-61 | A seat-booking is stored exactly when it is valid under the corrected restaurant rule. It keeps the store well formed and (seat, booking) pairs unique. |
| Persistence.SeatBookingKeepsTablesFree | smartserve/models/__init__.py:391-392 | After an accepted seat-booking, still no table carries two bookings with overlapping windows. |
| Persistence.SeatBookingKeepsOneRestaurant | smartserve/models/__init__.py:388-389 | With the corrected rule, after an accepted seat-booking every booking still stands at one restaurant. |
| Persistence.OrderFullClean | smartserve/models/__init__.py:431-473 | `Order.full_clean` reports nothing exactly when all of these hold: the item and seat-booking exist; the course is one of the four courses; and the item is available at the seat's restaurant. A course outside the choices always gets an invalid-choice error. |
| Persistence.SaveOrder | smartserve/models/utils.py:48-61 | An order is stored exactly when it is valid. It keeps every stored order's item available at its restaurant. |
| Persistence.MenuItemFullClean | smartserve/models/__init__.py:398-412 | A menu item is accepted exactly when its name is valid and unused. The uniqueness error appears only for an otherwise valid name. |
| Persistence.SaveMenuItem | smartserve/models/utils.py:48-61 | A menu item is stored exactly when it is valid. It keeps menu-item names unique. |
| Persistence.CleanedUser | smartserve/models/__init__.py:74-79 | `User.clean` makes a superuser staff and fills an empty employee id with the generated one. It leaves the names and flags alone. |
| Persistence.UserFullClean | smartserve/models/__init__.py:19-91 | `User.full_clean` reports nothing exactly when all of these hold: the employee id is empty or six digits; both names have 1 to 75 characters; no co-worker has the full name; and no other user has the cleaned id. A co-worker clash is reported on both `first_name` and `last_name`. |
| Persistence.SaveUser | smartserve/models/utils.py:48-61 | A user is stored, cleaned, exactly when valid. The stored user has a six-digit id, is staff if superuser, and employee ids stay valid and unique. |
| Persistence.UserSaveKeepsCoworkerNames | smartserve/models/__init__.py:81-91 | After an accepted user save, no two employees of a restaurant share a full name. |
| BookingCreation.CreateBooking | smartserve/models/__init__.py:244-252 | `create_booking` returns the following: (1) A window that does not end after its start stores nothing. (2) Otherwise the booking is stored under the next id, followed by the seat-bookings of the seats booked so far. Under the corrected restaurant rule, every invariant is kept. (3) It succeeds exactly when every effective seat got a seat-booking, and then the booked seats are exactly the table's effective seats. (4) It fails exactly at the first seat, in iteration order, whose seat-booking save is rejected, and it reports that save's errors. |
| BookingCreation.ProgressStep | smartserve/models/__init__.py:248-249 | Each accepted seat-booking adds exactly its seat to the booking and keeps the invariants. |
| BookingCreation.BookNextSeat | smartserve/models/__init__.py:247-249 | Saving the seat-booking for the next seat in order either extends the booked prefix by that seat, or fails and leaves the store as it was. It fails exactly when `SeatBooking.save` rejects that seat-booking, and then with that save's errors. |
| BaseModel.SplitKeywords | smartserve/models/utils.py:38-46 | Construction splits the keywords into field and proxy-field keywords: disjoint, together all of them, the proxy part exactly the proxy names. |
| BaseModel.ConstructionPassesKeywordsThrough | smartserve/models/utils.py:92-100 | With no proxy fields, every keyword goes to the constructor unchanged. |
| BaseModel.AssignAttributes | smartserve/models/utils.py:70-85 | `update` reports the unknown names exactly when some supplied name is neither a field nor a proxy field, and then assigns nothing. Otherwise supplied fields take the supplied values and all others keep theirs. |
| BaseModel.EncodeTable | smartserve/models/__init__.py:136-160 | A table's attributes are exactly its three fields and decode back to the same table. |
| BaseModel.EncodeUser | smartserve/models/__init__.py:25-51 | A user's attributes are exactly its six modelled fields and decode back to the same user. |
| BaseModel.EncodeDecodeUser | smartserve/models/__init__.py:25-51 | A well-typed attribute map of the user fields is the encoding of what it decodes to. |
| BaseModel.EncodeDecodeTable | smartserve/models/__init__.py:136-160 | A well-typed attribute map of the table fields is the encoding of what it decodes to. |
| BaseModel.UpdateTable | smartserve/models/utils.py:63-88 | `table.update` rejects unknown names and assigns nothing. Otherwise the object after the assignments holds the supplied values and keeps the others, whether or not a later save fails. Without commit the store is untouched. With commit the outcome is exactly `Table.save`'s on that object, and `Table.clean` leaves the object as it was. Values that all have a table's field types are never refused as mistyped. |
| BaseModel.UpdateUser | smartserve/models/utils.py:63-88 | The same for `user.update`, whose commit is `User.save`. That save runs `User.clean` on the object itself, whether or not it succeeds. So after a commit the object is staff if it is a superuser, and an empty employee id has been replaced by the generated one. On success the store holds that object. Values that all have a user's field types are never refused as mistyped. |
| BaseModel.SuperuserBecomesStaff | smartserve/tests/model_tests/__init__.py:73-81 | In a consistent store, `update(is_superuser=True)` on a stored user succeeds. The saved user and the in-memory object are both staff. |
| BaseModel.PromotedUserValid | smartserve/models/__init__.py:74-79 | A stored user with names of valid length in a consistent store, made superuser, is still a valid user, so the save that `update` commits accepts it. |
| BaseModel.UpdateToCoworkerNameRejected | smartserve/tests/model_tests/__init__.py:83-93 | Renaming a user to a co-worker's full name through `update` fails with the co-worker error on both name fields. |
| Signals.UserAddedToRestaurant | smartserve/models/signals.py:19-39 | Actions other than post_add change nothing. The handler only removes memberships, and only memberships of `pk_set` members in the direction the signal was sent. |
| Signals.RemoveNamesakes | smartserve/models/signals.py:28-32 | The forward loop only removes memberships of restaurant r held by users it visits. |
| Signals.LeaveNamesakeRestaurants | smartserve/models/signals.py:34-39 | The reverse loop compares with the names of the in-memory user object. It only removes memberships of user u at restaurants it visits. |
| Signals.AddEmployees | smartserve/models/signals.py:19-32 | `restaurant.employees.add` never removes a membership that existed before, and only adds memberships of r with the given users. |
| Signals.AddRestaurantsToUser | smartserve/models/signals.py:34-39 | `user.restaurants.add` never removes an earlier membership, and only adds memberships of u with the given restaurants. |
| Signals.SweepRemovesNamesake | smartserve/models/signals.py:30-32 | A visited user whose namesake stays employed is removed. |
| Signals.AddingNamesakeFails | smartserve/tests/model_tests/signal_tests.py:8-18 | Adding a user to a restaurant that already employs someone with the same full name leaves the user not employed there. |
| Signals.SweepKeepsUnmatched | smartserve/models/signals.py:30-32 | A visited user with no namesake when the loop starts is kept. |
| Signals.RemoveNamesakesSplit | smartserve/models/signals.py:30-32 | Running the forward loop over a sequence is running it over a prefix and then over the rest. |
| Signals.SweepDecidesAtCheckTime | smartserve/models/signals.py:30-32 | The forward loop keeps the i-th visited member exactly when it was a member and, at the moment the loop checks it, no other current employee of r has its full name. |
| Signals.SameNamedPairKeepsLater | smartserve/models/signals.py:30-32 | Of two visited members sharing a full name no one else at r has, the first checked is removed and the later one stays. |
| Signals.AddEmployeesDecidesAtCheckTime | smartserve/models/signals.py:21-32 | After `employees.add`, the i-th newly added user stays exactly when no other employee of r has its full name at the moment the handler checks it. |
| Signals.UnmatchedUserStays | smartserve/models/signals.py:30-32 | A newly added user whose full name no other old or new employee has stays employed. |
| Signals.SweepStep | smartserve/models/signals.py:30-32 | One step of the forward loop settles the collisions of the user it visits: that user leaves r, or no co-worker there shares its name. |
| Signals.SweepClearsCollisions | smartserve/models/signals.py:21-32 | For any visiting order, the forward loop settles every name collision it is responsible for. |
| Signals.AddEmployeesKeepsNamesDistinct | smartserve/models/signals.py:21-32 | If co-workers' full names were distinct before `employees.add`, they are afterwards, for any order. |
| Signals.LeaveExactly | smartserve/models/signals.py:34-39 | The reverse loop removes the user from exactly the visited restaurants where, when it started, another employee had the full name of the in-memory user object. |
| Signals.AddRestaurantsExactly | smartserve/tests/model_tests/signal_tests.py:20-30 | After `user.restaurants.add`, a new restaurant keeps the user exactly when it had no other employee with the full name of the in-memory user object. |
| Signals.AddRestaurantsKeepsNamesDistinct | smartserve/models/signals.py:21-25 | If co-workers' full names were distinct before `user.restaurants.add`, and the in-memory user carries its stored name, they are distinct afterwards. |
| TestStrings.FillIndex | smartserve/tests/utils.py:109-115 | The cut-and-repeat has length `size`, holds `s[i mod len(s)]` at every index, and is the length-`size` prefix when `s` is long enough. |
| TestStrings.Strip | smartserve/tests/utils.py:117-118 | `strip()` leaves no whitespace at either end. It changes nothing exactly when neither end is whitespace, and it gives the empty string exactly when everything is whitespace. |
| TestStrings.CutVisible | smartserve/tests/utils.py:117-120 | Stripping the cut leaves a non-empty string exactly when the cut has a character that is not whitespace. Otherwise the rebuild divides by zero. |
| TestStrings.DuplicateStringToSize | smartserve/tests/utils.py:109-125 | The result has length `size`. Without strip it cycles through `s`. With strip its first character is never whitespace. |
| TestStrings.RebuiltCycles | smartserve/tests/utils.py:117-120 | With strip, the string before the ending fix cycles through `s` when the cut had no surrounding whitespace, and otherwise through the stripped cut. |
| TestStrings.DuplicateWithStrip | smartserve/tests/utils.py:117-123 | With strip, the result cycles through that base up to its last character. A trailing space, `'` or `-` becomes the first character. |

## Findings

| source | as written | input that shows it | evidently intended | confidence | as-written member | corrected member |
|---|---|---|---|---|---|---|
| smartserve/models/__init__.py:388 | The restaurant rule needs `self.booking.seat_bookings.count() >= 2`. The seat-booking being saved is not yet counted, so the second seat-booking of a booking is never checked. | A booking holds one seat-booking at restaurant 1. A new seat-booking puts a seat of restaurant 2 under the same booking. `clean` accepts it and the booking spans two restaurants. | Every seat of a booking stands at one restaurant. The rule should fire as soon as the booking holds any other seat-booking. | medium, not executed | Bookings.AsWrittenAdmitsMixedBooking | Bookings.SeatBookingClean |

The as-written rule is `Bookings.MixedRestaurantAsWritten`, and its exact
firing condition is `Bookings.AsWrittenRestaurantRule`. The corrected rule
`Bookings.MixedRestaurant` is what `Persistence.SaveSeatBooking` uses.
`Persistence.SeatBookingKeepsOneRestaurant` proves it keeps
`Bookings.SameRestaurantBookings`. `Bookings.IntendedRuleUsesDerivedRestaurant`
shows it is the source's rule without the threshold.

## Left out

- Admin site, settings loading, URL routing, views, `apps.py`, the user
  manager and `AttributeDeleter`: these are user-interface and framework
  plumbing, not domain rules. managers.py and the admin forms do not import
  cleanly as written.
- `Face` is not part of this model. It is referenced outside the model
  definitions but never defined there.
- `generate_employee_id` uses a random UUID. It becomes the parameter
  `freshId`, assumed to be six ASCII digits, which the first six digits of a
  128-bit number always are.
- Validators.IsDigit: the employee-id pattern's `\d` also matches non-ASCII
  Unicode decimal digits. The model accepts ASCII digits only, which is what
  the six-digit rule evidently means.
- Fields outside the domain rules: `password`, `last_login`, `date_joined`,
  groups and permissions of `User`, `MenuItem.description` and `Order.notes`.
  The two text fields are blank-able and carry no enforced length limit.
- Booking times are integers (for example, minutes). Time zones and
  date-time parsing are not modelled.
- Accessors that only query: `Table.bookings`, `Booking.orders`,
  `full_name`, `short_name` and `__str__`.
- Deletion and its cascades (`CASCADE`, `PROTECT`, `SET_NULL`): the core
  never deletes, and the model has no delete operation.
- A dangling foreign key makes `clean()` in the source raise `DoesNotExist`
  before it reports anything. The model reports the field's
  missing-reference error, and the `clean()` rules that need the missing row
  do not fire.
- BaseModel.UpdateTable: `update` in the source also accepts reverse-relation
  names, `*_id` attribute names and the primary key, and Python lets any
  value be assigned. The model accepts the forward field names only, and
  reports a value of the wrong kind as one `WrongType` error before saving.
  The `using` argument is dropped. `update` passes it to `save`
  positionally, where it lands in `force_insert`, and no caller passes it.
- BaseModel.UpdateUser: the same restriction on names and values as
  `UpdateTable`, and the same dropped `using`.
- Validators.PositiveIntegerErrors: the upper bound 2^31 − 1 is Django
  4.2's range for `PositiveIntegerField`, the version the project is
  generated with. The bound depends on the Django version and backend. A
  version that gives SQLite its 64-bit range would allow up to 2^63 − 1. The
  same bound appears in `Persistence.TableFullClean` and
  `Persistence.SeatFullClean`.
- Signals.AddRestaurantsKeepsNamesDistinct: stated for an in-memory user
  whose full name is the stored one. The handler checks the in-memory name,
  so an unsaved rename lets the stored name collide with a co-worker's.
- Persistence.SaveSeatBooking: runs the corrected restaurant rule
  (`Bookings.MixedRestaurant`) in place of the rule as written
  (`Bookings.MixedRestaurantAsWritten`; see Findings). Where the written rule
  lets a second seat at another restaurant through, this save rejects it.
  The written rule's behaviour is stated by `Bookings.AsWrittenRestaurantRule`
  and `Bookings.AsWrittenAdmitsMixedBooking`.
- BookingCreation.CreateBooking: its seat-bookings go through
  `Persistence.SaveSeatBooking`, so it uses the corrected rule too. A root
  table whose subtree spans two restaurants can only arise from a table
  moved to another restaurant, which no save re-checks (see below). On such
  a table the written rule always lets the second seat through unchecked.
  From the third seat on, it rejects each seat that stands away from the
  restaurant of the lowest-id table booked so far. So whether
  `create_booking` as written succeeds, splits the booking, or fails
  part-way depends on the order of the seats and on the table ids. The
  model fails at the first seat whose restaurant differs from an earlier
  seat's. The invariants
  it keeps, one-restaurant bookings among them, are those of the corrected
  program.
- Database-level behaviour: transactions and concurrent saves (each save is
  atomic and sequential here), and the `IntegrityError` the signal tests
  expect. The handler never raises one; the model follows the handler's
  remove-after-add behaviour and proves the tests' end-state assertions.
- Saving a table, seat or booking does not re-check the seat-bookings and
  sub-tables that depend on it. A table moved to another restaurant, or a
  booking whose window changes, can break one-restaurant bookings, double
  booking or same-restaurant containers. The source does not check this, so
  the preservation results are stated for the saves that cannot break them.
- TestStrings.DuplicateStringToSize: a negative `size` is excluded (Python
  would slice from the end). An empty string, or with strip a cut that is
  all whitespace, is excluded for a positive size because the source
  divides by zero.
- Table.seats of a root table: the code collects every seat of its whole
  subtree, including sub-tables of sub-tables. That is what the model proves
  (`Tables.EffectiveSeatsCharacterised`).

=== FILE: base_model.dfy ===
/** CustomBaseModel's keyword handling: construction with proxy fields and
    update (check the names, assign, optionally save).  An object is seen
    through its attributes, a map from field name to value. */
module BaseModel {
  import opened Errors
  import opened Models
  import opened Validators
  import opened Persistence

  /** The values the core's fields hold. */
  datatype Value =
    | IntValue(number: int)
    | TextValue(text: string)
    | FlagValue(flag: bool)
    | RefValue(ref: Option<Id>)

  type Attributes = map<string, Value>

  /** get_proxy_field_names: no model of the core declares a proxy field. */
  function ProxyFieldNames(): set<string>
  {
    {}
  }

  /** __init__'s first step: the keywords naming proxy fields are taken out
      (and set after Django's own constructor has run); the rest go to
      Django's constructor. */
  function SplitKeywords(proxies: set<string>, kwargs: Attributes): (r: (Attributes, Attributes))
    ensures r.0.Keys !! r.1.Keys && r.0 + r.1 == kwargs
    ensures r.1.Keys == kwargs.Keys * proxies
  {
    (map k | k in kwargs && k !in proxies :: kwargs[k], map k | k in kwargs && k in proxies :: kwargs[k])
  }

  /** With no proxy fields, construction hands every keyword to Django's
      constructor unchanged and sets nothing afterwards. */
  lemma ConstructionPassesKeywordsThrough(kwargs: Attributes)
    ensures SplitKeywords(ProxyFieldNames(), kwargs) == (kwargs, map[])
  {
    var r := SplitKeywords(ProxyFieldNames(), kwargs);
    assert r.0 == kwargs;
  }

  /** update's in-memory part. */
  datatype Assignment = UnexpectedNames(names: set<string>) | Assigned(attributes: Attributes)

  /** The name check and assignment of CustomBaseModel.update: any supplied
      name that is neither a field nor a proxy field is reported (the
      TypeError) before anything is assigned; otherwise each supplied value
      replaces the current one. */
  function AssignAttributes(fields: set<string>, proxies: set<string>, current: Attributes, kwargs: Attributes)
    : (a: Assignment)
    ensures a.UnexpectedNames? <==> exists k | k in kwargs :: k !in fields && k !in proxies
    ensures a.UnexpectedNames? ==>
      a.names != {} && forall k :: k in a.names <==> k in kwargs && k !in fields && k !in proxies
    ensures a.Assigned? ==>
      && a.attributes.Keys == current.Keys + kwargs.Keys
      && (forall k | k in kwargs :: a.attributes[k] == kwargs[k])
      && (forall k | k in current && k !in kwargs :: a.attributes[k] == current[k])
  {
    var unexpected := set k | k in kwargs && k !in proxies && k !in fields;
    assert forall k | k in kwargs && k !in fields && k !in proxies :: k in unexpected;
    if unexpected != {} then UnexpectedNames(unexpected) else Assigned(current + kwargs)
  }

  /** What update does: the rejected names, an assigned value of the wrong
      kind, a failed save, or a success.  applied is the object right
      after the assignments; instance is the in-memory object update leaves
      behind, which differs from applied when save's clean() changes the
      object in place; store is the store after the optional save. */
  datatype UpdateOutcome<T> =
    | Rejected(names: set<string>)
    | Mistyped(errors: seq<Violation>)
    | NotSaved(applied: T, instance: T, errors: seq<Violation>)
    | Updated(applied: T, instance: T, store: Store)

  // --------------------------------------------------------------------- Table

  const TableFields: set<string> := {"number", "restaurant", "container_table"}

  function DecodeTable(a: Attributes): (r: Result<Table>)
    ensures r.Failed? ==> r.errors != [] && forall i | 0 <= i < |r.errors| :: r.errors[i].rule == WrongType
  {
    if && "number" in a && a["number"].IntValue?
       && "restaurant" in a && a["restaurant"].RefValue? && a["restaurant"].ref.Some?
       && "container_table" in a && a["container_table"].RefValue?
    then Ok(Table(a["number"].number, a["restaurant"].ref.value, a["container_table"].ref))
    else Failed([Violation(NonField, Invalid, WrongType)])
  }

  function EncodeTable(rec: Table): (a: Attributes)
    ensures a.Keys == TableFields
    ensures DecodeTable(a) == Ok(rec)
  {
    map["number" := IntValue(rec.number),
        "restaurant" := RefValue(Some(rec.restaurant)),
        "container_table" := RefValue(rec.container)]
  }

  /** Decoding loses nothing: a well-typed attribute map of exactly the
      table fields is the encoding of what it decodes to. */
  lemma EncodeDecodeTable(a: Attributes)
    requires a.Keys == TableFields && DecodeTable(a).Ok?
    ensures EncodeTable(DecodeTable(a).value) == a
  {
    var b := EncodeTable(DecodeTable(a).value);
    assert forall k | k in TableFields :: b[k] == a[k];
  }

  /** table.update(**kwargs, commit=commit) on the table stored (or about
      to be stored) under id t. */
  function UpdateTable(s: Store, t: Id, current: Table, kwargs: Attributes, commit: bool): (u: UpdateOutcome<Table>)
    requires WellFormed(s)
    ensures u.Rejected? <==> exists k | k in kwargs :: k !in TableFields
    ensures u.Mistyped? ==> u.errors != []
    ensures forall t': Table | (forall k | k in kwargs :: k in TableFields && kwargs[k] == EncodeTable(t')[k]) ::
      !u.Mistyped?
    ensures u.Updated? || u.NotSaved? ==>
      && (forall k | k in kwargs :: EncodeTable(u.applied)[k] == kwargs[k])
      && (forall k | k in TableFields && k !in kwargs :: EncodeTable(u.applied)[k] == EncodeTable(current)[k])
      && u.instance == u.applied
    ensures u.NotSaved? ==> commit && SaveTable(s, t, u.applied) == Failed(u.errors)
    ensures u.Updated? && !commit ==> u.store == s
    ensures u.Updated? && commit ==> SaveTable(s, t, u.applied) == Ok(u.store)
  {
    match AssignAttributes(TableFields, ProxyFieldNames(), EncodeTable(current), kwargs)
    case UnexpectedNames(names) => Rejected(names)
    case Assigned(attributes) =>
      match DecodeTable(attributes)
      case Failed(errs) => Mistyped(errs)
      case Ok(applied) =>
        EncodeDecodeTable(attributes);
        if !commit then Updated(applied, applied, s)
        else
          match SaveTable(s, t, applied)
          case Ok(s') => Updated(applied, applied, s')
          case Failed(errs) => NotSaved(applied, applied, errs)
  }

  // ---------------------------------------------------------------------- User

  const UserFields: set<string> :=
    {"employee_id", "first_name", "last_name", "is_staff", "is_superuser", "is_active"}

  function DecodeUser(a: Attributes): (r: Result<User>)
    ensures r.Failed? ==> r.errors != [] && forall i | 0 <= i < |r.errors| :: r.errors[i].rule == WrongType
  {
    if && "employee_id" in a && a["employee_id"].TextValue?
       && "first_name" in a && a["first_name"].TextValue?
       && "last_name" in a && a["last_name"].TextValue?
       && "is_staff" in a && a["is_staff"].FlagValue?
       && "is_superuser" in a && a["is_superuser"].FlagValue?
       && "is_active" in a && a["is_active"].FlagValue?
    then Ok(User(a["employee_id"].text, a["first_name"].text, a["last_name"].text,
                 a["is_staff"].flag, a["is_superuser"].flag, a["is_active"].flag))
    else Failed([Violation(NonField, Invalid, WrongType)])
  }

  function EncodeUser(rec: User): (a: Attributes)
    ensures a.Keys == UserFields
    ensures DecodeUser(a) == Ok(rec)
  {
    map["employee_id" := TextValue(rec.employeeId),
        "first_name" := TextValue(rec.firstName),
        "last_name" := TextValue(rec.lastName),
        "is_staff" := FlagValue(rec.isStaff),
        "is_superuser" := FlagValue(rec.isSuperuser),
        "is_active" := FlagValue(rec.isActive)]
  }

  /** Decoding loses nothing: a well-typed attribute map of exactly the
      user fields is the encoding of what it decodes to. */
  lemma EncodeDecodeUser(a: Attributes)
    requires a.Keys == UserFields && DecodeUser(a).Ok?
    ensures EncodeUser(DecodeUser(a).value) == a
  {
    var b := EncodeUser(DecodeUser(a).value);
    assert forall k | k in UserFields :: b[k] == a[k];
  }

  /** user.update(**kwargs, commit=commit) on the user stored (or about to
      be stored) under id u; freshId is what generate_employee_id would
      return if clean needs it.  With commit, save's full_clean runs
      User.clean on the object itself, so the object update leaves behind
      is the cleaned one, whether or not the save succeeds. */
  function UpdateUser(s: Store, u: Id, current: User, kwargs: Attributes, commit: bool, freshId: string)
    : (r: UpdateOutcome<User>)
    requires WellFormed(s) && IsValidEmployeeId(freshId)
    ensures r.Rejected? <==> exists k | k in kwargs :: k !in UserFields
    ensures r.Mistyped? ==> r.errors != []
    ensures forall v: User | (forall k | k in kwargs :: k in UserFields && kwargs[k] == EncodeUser(v)[k]) ::
      !r.Mistyped?
    ensures r.Updated? || r.NotSaved? ==>
      && (forall k | k in kwargs :: EncodeUser(r.applied)[k] == kwargs[k])
      && (forall k | k in UserFields && k !in kwargs :: EncodeUser(r.applied)[k] == EncodeUser(current)[k])
    ensures (r.Updated? || r.NotSaved?) && !commit ==> r.instance == r.applied
    ensures (r.Updated? || r.NotSaved?) && commit ==>
      && r.instance.isStaff == (r.applied.isStaff || r.applied.isSuperuser)
      && r.instance.employeeId == (if r.applied.employeeId == "" then freshId else r.applied.employeeId)
      && SameName(r.instance, r.applied) && r.instance.isSuperuser == r.applied.isSuperuser
    ensures r.NotSaved? ==> commit && SaveUser(s, u, r.applied, freshId) == Failed(r.errors)
    ensures r.Updated? && !commit ==> r.store == s
    ensures r.Updated? && commit ==> SaveUser(s, u, r.applied, freshId) == Ok(r.store) && r.store.users[u] == r.instance
  {
    match AssignAttributes(UserFields, ProxyFieldNames(), EncodeUser(current), kwargs)
    case UnexpectedNames(names) => Rejected(names)
    case Assigned(attributes) =>
      match DecodeUser(attributes)
      case Failed(errs) => Mistyped(errs)
      case Ok(applied) =>
        EncodeDecodeUser(attributes);
        if !commit then Updated(applied, applied, s)
        else
          var cleaned := CleanedUser(applied, freshId);
          match SaveUser(s, u, applied, freshId)
          case Ok(s') => Updated(applied, cleaned, s')
          case Failed(errs) => NotSaved(applied, cleaned, errs)
  }

  /** Making a stored user a superuser through update succeeds when the
      store is consistent (the stored user has a six-digit id and proper
      names, ids are unique, co-workers' names distinct), and the saved user
      is then staff. */
  lemma SuperuserBecomesStaff(s: Store, u: Id, freshId: string)
    requires WellFormed(s) && IsValidEmployeeId(freshId) && u in s.users
    requires EmployeeIdsValid(s.users) && UniqueEmployeeIds(s.users) && DistinctCoworkerNames(s)
    requires 1 <= |s.users[u].firstName| <= PersonNameMaxLength && 1 <= |s.users[u].lastName| <= PersonNameMaxLength
    ensures var r := UpdateUser(s, u, s.users[u], map["is_superuser" := FlagValue(true)], true, freshId);
            && r.Updated? && r.store.users[u].isStaff && r.store.users[u].isSuperuser
            && r.instance.isStaff
  {
    PromoteAssigns(s.users[u]);
    PromotedUserValid(s, u, freshId);
  }

  /** update(is_superuser=True) assigns exactly the promoted user's
      attributes. */
  lemma PromoteAssigns(current: User)
    ensures AssignAttributes(UserFields, ProxyFieldNames(), EncodeUser(current), map["is_superuser" := FlagValue(true)])
            == Assigned(EncodeUser(current.(isSuperuser := true)))
  {
    var a := AssignAttributes(UserFields, ProxyFieldNames(), EncodeUser(current), map["is_superuser" := FlagValue(true)]);
    assert a.Assigned?;
    assert a.attributes == EncodeUser(current.(isSuperuser := true));
  }

  /** A stored user of a consistent store, made superuser, is still valid. */
  lemma PromotedUserValid(s: Store, u: Id, freshId: string)
    requires WellFormed(s) && IsValidEmployeeId(freshId) && u in s.users
    requires EmployeeIdsValid(s.users) && UniqueEmployeeIds(s.users) && DistinctCoworkerNames(s)
    requires 1 <= |s.users[u].firstName| <= PersonNameMaxLength && 1 <= |s.users[u].lastName| <= PersonNameMaxLength
    ensures ValidUser(s, u, s.users[u].(isSuperuser := true), freshId)
  {
    var promoted := s.users[u].(isSuperuser := true);
    forall r, v | r in EmployersOf(s, u) && v in Employees(s, r) && v != u && v in s.users
      ensures !SameName(s.users[v], promoted)
    {
      assert (r, u) in s.employs && (r, v) in s.employs;
    }
  }

  /** Giving a user the full name of a co-worker through update is
      rejected with the co-worker error on both name fields, and the store
      keeps the user as it was. */
  lemma UpdateToCoworkerNameRejected(s: Store, r: Id, u: Id, v: Id, freshId: string)
    requires WellFormed(s) && IsValidEmployeeId(freshId)
    requires (r, u) in s.employs && (r, v) in s.employs && u != v
    ensures var kwargs := map["first_name" := TextValue(s.users[v].firstName),
                              "last_name" := TextValue(s.users[v].lastName)];
            var out := UpdateUser(s, u, s.users[u], kwargs, true, freshId);
            && out.NotSaved?
            && Violation("first_name", NoCode, CoWorkerSameName) in out.errors
            && Violation("last_name", NoCode, CoWorkerSameName) in out.errors
  {
    var kwargs := map["first_name" := TextValue(s.users[v].firstName),
                      "last_name" := TextValue(s.users[v].lastName)];
    var a := AssignAttributes(UserFields, ProxyFieldNames(), EncodeUser(s.users[u]), kwargs);
    assert a.Assigned?;
    var instance := DecodeUser(a.attributes).value;
    assert r in EmployersOf(s, u) && v in Employees(s, r);
    assert CoWorkerClash(s, u, instance);
  }
}

=== FILE: booking_creation.dfy ===
/** Table.create_booking: create the booking, then one seat-booking per seat
    of the table, each saved (and so validated) on its own.  Nothing wraps
    the steps in a transaction, so a failing seat-booking leaves the booking
    and the seat-bookings before it stored. */
module BookingCreation {
  import opened Errors
  import opened Models
  import opened Tables
  import opened Bookings
  import opened Persistence

  /** The seats booked under booking b. */
  function BookedSeats(sbs: map<Id, SeatBooking>, b: Id): set<Id>
  {
    set x | x in sbs && sbs[x].booking == b :: sbs[x].seat
  }

  /** The first k seats of an enumeration. */
  function Prefix(order: seq<Id>, k: nat): (r: set<Id>)
    requires k <= |order|
    ensures forall y :: y in r <==> exists i | 0 <= i < k :: order[i] == y
  {
    set i | 0 <= i < k :: order[i]
  }

  /** A seat-booking stored under a fresh id adds exactly its seat to its
      booking's seats. */
  lemma BookedSeatsGrow(sbs: map<Id, SeatBooking>, id: Id, seat: Id, b: Id)
    requires id !in sbs
    ensures BookedSeats(sbs[id := SeatBooking(seat, b)], b) == BookedSeats(sbs, b) + {seat}
  {
    var grown := sbs[id := SeatBooking(seat, b)];
    forall y | y in BookedSeats(grown, b)
      ensures y in BookedSeats(sbs, b) + {seat}
    {
      var x :| x in grown && grown[x].booking == b && grown[x].seat == y;
      if x != id {
        assert y in BookedSeats(sbs, b);
      }
    }
    assert grown[id].seat == seat;
    forall y | y in BookedSeats(sbs, b)
      ensures y in BookedSeats(grown, b)
    {
      var x :| x in sbs && sbs[x].booking == b && sbs[x].seat == y;
      assert grown[x] == sbs[x];
    }
  }

  /** Where create_booking stands after booking the first k seats of order
      under booking b: only the booking and its seat-bookings were added,
      and the store invariants still hold. */
  ghost predicate Progress(s: Store, cur: Store, b: Id, rec: Booking, order: seq<Id>, k: nat)
    requires ReferencesResolve(s)
  {
    && k <= |order|
    && WellFormed(cur)
    && cur == s.(bookings := cur.bookings, seatBookings := cur.seatBookings)
    && cur.bookings == s.bookings[b := rec]
    && (forall x | x in s.seatBookings :: x in cur.seatBookings && cur.seatBookings[x] == s.seatBookings[x])
    && (forall x | x in cur.seatBookings && x !in s.seatBookings :: cur.seatBookings[x].booking == b)
    && BookedSeats(cur.seatBookings, b) == Prefix(order, k)
    && (NoDoubleBooking(s) ==> NoDoubleBooking(cur))
    && (SameRestaurantBookings(s) ==> SameRestaurantBookings(cur))
    && (UniqueSeatBookingPairs(s.seatBookings) ==> UniqueSeatBookingPairs(cur.seatBookings))
  }

  /** Saving the new booking starts the progress: nothing is booked under
      it yet. */
  lemma ProgressStart(s: Store, b: Id, rec: Booking, order: seq<Id>)
    requires WellFormed(s) && b !in s.bookings && rec.start < rec.end
    ensures Progress(s, SaveBooking(s, b, rec).value, b, rec, order, 0)
  {
    var cur := SaveBooking(s, b, rec).value;
    forall x | x in s.seatBookings
      ensures s.seatBookings[x].booking != b
    {
      assert s.seatBookings[x].booking in s.bookings;
    }
    assert BookedSeats(cur.seatBookings, b) == {};
  }

  /** One more accepted seat-booking under a fresh id advances the
      progress by one seat. */
  lemma ProgressStep(s: Store, cur: Store, b: Id, rec: Booking, order: seq<Id>, k: nat, id: Id)
    requires WellFormed(s) && Progress(s, cur, b, rec, order, k) && k < |order|
    requires id !in cur.seatBookings
    requires SaveSeatBooking(cur, id, SeatBooking(order[k], b)).Ok?
    ensures Progress(s, SaveSeatBooking(cur, id, SeatBooking(order[k], b)).value, b, rec, order, k + 1)
  {
    var sb := SeatBooking(order[k], b);
    var next := SaveSeatBooking(cur, id, sb).value;
    assert next.seatBookings == cur.seatBookings[id := sb];
    if NoDoubleBooking(s) {
      SeatBookingKeepsTablesFree(cur, id, sb);
    }
    if SameRestaurantBookings(s) {
      SeatBookingKeepsOneRestaurant(cur, id, sb);
    }
    StepKeepsFrame(s, cur, next, b, id, sb);
    BookedSeatsGrow(cur.seatBookings, id, order[k], b);
    PrefixGrow(order, k);
  }

  lemma PrefixGrow(order: seq<Id>, k: nat)
    requires k < |order|
    ensures Prefix(order, k + 1) == Prefix(order, k) + {order[k]}
  {
  }

  /** Adding one seat-booking of b keeps the old seat-bookings and books
      every new one under b. */
  lemma StepKeepsFrame(s: Store, cur: Store, next: Store, b: Id, id: Id, sb: SeatBooking)
    requires forall x | x in s.seatBookings :: x in cur.seatBookings && cur.seatBookings[x] == s.seatBookings[x]
    requires forall x | x in cur.seatBookings && x !in s.seatBookings :: cur.seatBookings[x].booking == b
    requires id !in cur.seatBookings && sb.booking == b
    requires next.seatBookings == cur.seatBookings[id := sb]
    ensures forall x | x in s.seatBookings :: x in next.seatBookings && next.seatBookings[x] == s.seatBookings[x]
    ensures forall x | x in next.seatBookings && x !in s.seatBookings :: next.seatBookings[x].booking == b
  {
  }

  /** The seats of an enumeration are the set it enumerates. */
  lemma PrefixAll(order: seq<Id>, xs: set<Id>)
    requires Enumerates(order, xs)
    ensures Prefix(order, |order|) == xs
  {
  }

  /** One iteration of create_booking's loop: save a seat-booking of the
      next seat under the next free id.  On success the progress advances
      by that seat; on failure the store is unchanged and the errors are
      the seat-booking's. */
  method BookNextSeat(s: Store, cur: Store, b: Id, rec: Booking, order: seq<Id>, k: nat)
    returns (next: Store, errs: seq<Violation>)
    requires WellFormed(s) && Progress(s, cur, b, rec, order, k) && k < |order|
    ensures errs == [] ==> Progress(s, next, b, rec, order, k + 1)
    ensures errs != [] ==> next == cur
    ensures errs == [] <==> SaveSeatBooking(cur, NextId(cur.seatBookings.Keys), SeatBooking(order[k], b)).Ok?
    ensures errs != [] ==> SaveSeatBooking(cur, NextId(cur.seatBookings.Keys), SeatBooking(order[k], b)) == Failed(errs)
  {
    var id := NextId(cur.seatBookings.Keys);
    var attempt := SaveSeatBooking(cur, id, SeatBooking(order[k], b));
    if attempt.Failed? {
      return cur, attempt.errors;
    }
    ProgressStep(s, cur, b, rec, order, k, id);
    return attempt.value, [];
  }

  /** Table.create_booking.  seatOrder is the order in which the database
      returns the table's effective seats (Table.seats).  The booking gets
      id NextId of the stored bookings and each seat-booking the next free
      seat-booking id; booked counts the seat-bookings created.  A window
      that does not end after it starts creates nothing; otherwise the
      booking and the seat-bookings of the first booked seats are stored
      and the store invariants kept (Progress).  The call fails exactly at
      the first seat whose seat-booking save is rejected, with that save's
      errors; when no save is rejected every seat is booked. */
  method CreateBooking(s: Store, t: Id, start: int, end: int, seatOrder: seq<Id>)
    returns (s': Store, r: Result<Id>, booked: nat)
    requires WellFormed(s) && t in s.tables
    requires Enumerates(seatOrder, EffectiveSeats(s.tables, s.seats, t))
    ensures WellFormed(s')
    ensures end <= start ==> s' == s && r == Failed(BookingFullClean(Booking(start, end)))
    ensures start < end ==> Progress(s, s', NextId(s.bookings.Keys), Booking(start, end), seatOrder, booked)
    ensures r.Ok? <==> start < end && booked == |seatOrder|
    ensures r.Ok? ==> r.value == NextId(s.bookings.Keys)
                      && BookedSeats(s'.seatBookings, r.value) == EffectiveSeats(s.tables, s.seats, t)
    ensures r.Failed? ==> r.errors != []
    ensures r.Failed? && start < end ==>
      && booked < |seatOrder|
      && SaveSeatBooking(s', NextId(s'.seatBookings.Keys), SeatBooking(seatOrder[booked], NextId(s.bookings.Keys)))
         == Failed(r.errors)
  {
    var rec := Booking(start, end);
    if end <= start {
      s', r, booked := s, Failed(BookingFullClean(rec)), 0;
      return;
    }
    var b := NextId(s.bookings.Keys);
    s' := SaveBooking(s, b, rec).value;
    ProgressStart(s, b, rec, seatOrder);
    booked := 0;
    while booked < |seatOrder|
      invariant Progress(s, s', b, rec, seatOrder, booked)
    {
      var next, errs := BookNextSeat(s, s', b, rec, seatOrder, booked);
      if errs != [] {
        r := Failed(errs);
        return;
      }
      s', booked := next, booked + 1;
    }
    PrefixAll(seatOrder, EffectiveSeats(s.tables, s.seats, t));
    r := Ok(b);
  }
}

=== FILE: bookings.dfy ===
/** The booking rules: a booking's derived restaurant, the seat-booking
    checks (same restaurant, no overlapping bookings on one table) and the
    order availability check. */
module Bookings {
  import opened Errors
  import opened Models

  /** The seat-booking filters: two windows clash unless one starts at or
      after the other's end.  Windows are half-open, so touching windows do
      not clash. */
  predicate Overlaps(a: Booking, b: Booking)
  {
    !(a.start >= b.end || a.end <= b.start)
  }

  /** instant lies in b's half-open window [start, end). */
  predicate During(b: Booking, instant: int)
  {
    b.start <= instant < b.end
  }

  /** For proper windows, clashing means sharing an instant. */
  lemma OverlapIsSharedInstant(a: Booking, b: Booking)
    requires a.start < a.end && b.start < b.end
    ensures Overlaps(a, b) <==> exists instant :: During(a, instant) && During(b, instant)
  {
    if Overlaps(a, b) {
      var instant := if a.start < b.start then b.start else a.start;
      assert During(a, instant) && During(b, instant);
    }
  }

  /** The seat-bookings of booking b. */
  function SeatBookingsOf(sbs: map<Id, SeatBooking>, b: Id): set<Id>
  {
    set x | x in sbs && sbs[x].booking == b
  }

  /** Booking.tables: the tables of the seats booked under b. */
  function BookingTables(s: Store, b: Id): (r: set<Id>)
    requires ReferencesResolve(s)
    ensures r <= s.tables.Keys
  {
    set x | x in s.seatBookings && s.seatBookings[x].booking == b
      :: s.seats[s.seatBookings[x].seat].table
  }

  /** Booking.restaurant: none while nothing is booked, otherwise the
      restaurant of the booked table with the lowest id. */
  function BookingRestaurant(s: Store, b: Id): (r: Option<Id>)
    requires ReferencesResolve(s)
    ensures r.None? <==> SeatBookingsOf(s.seatBookings, b) == {}
    ensures r.Some? ==> exists x | x in SeatBookingsOf(s.seatBookings, b) ::
                          SeatRestaurant(s, s.seatBookings[x].seat) == r.value
  {
    var ts := BookingTables(s, b);
    assert forall x | x in SeatBookingsOf(s.seatBookings, b) ::
             s.seats[s.seatBookings[x].seat].table in ts;
    if ts == {} then
      None
    else
      var m := MinId(ts);
      assert exists x | x in SeatBookingsOf(s.seatBookings, b) ::
               s.seats[s.seatBookings[x].seat].table == m;
      Some(s.tables[m].restaurant)
  }

  /** The same-restaurant rule of SeatBooking.clean as written: it only
      fires once the booking already holds two seat-bookings. */
  predicate MixedRestaurantAsWritten(s: Store, sb: SeatBooking)
    requires ReferencesResolve(s)
  {
    && sb.seat in s.seats
    && sb.booking in s.bookings
    && var r := BookingRestaurant(s, sb.booking);
       && r.Some?
       && |SeatBookingsOf(s.seatBookings, sb.booking)| >= 2
       && SeatRestaurant(s, sb.seat) != r.value
  }

  /** The same-restaurant rule as intended: some other seat-booking of the
      same booking stands at a different restaurant. */
  predicate MixedRestaurant(s: Store, id: Id, sb: SeatBooking)
    requires ReferencesResolve(s)
  {
    && sb.seat in s.seats
    && exists x | x in s.seatBookings && x != id && s.seatBookings[x].booking == sb.booking ::
         SeatRestaurant(s, s.seatBookings[x].seat) != SeatRestaurant(s, sb.seat)
  }

  /** A seat-booking of another booking on the same (direct) table whose
      window overlaps this booking's. */
  predicate TableConflict(s: Store, sb: SeatBooking)
    requires ReferencesResolve(s)
  {
    && sb.seat in s.seats
    && sb.booking in s.bookings
    && exists x | x in s.seatBookings ::
         && s.seatBookings[x].booking != sb.booking
         && s.seats[s.seatBookings[x].seat].table == s.seats[sb.seat].table
         && Overlaps(s.bookings[s.seatBookings[x].booking], s.bookings[sb.booking])
  }

  /** SeatBooking.clean exactly as written: the restaurant rule first
      (a non-field error), then the table-overlap rule (on seat; the
      dict form drops the code "unique" it passes). */
  function SeatBookingCleanAsWritten(s: Store, sb: SeatBooking): (errs: seq<Violation>)
    requires ReferencesResolve(s)
    ensures |errs| <= 1
  {
    if MixedRestaurantAsWritten(s, sb) then [Violation(NonField, Invalid, MixedRestaurants)]
    else if TableConflict(s, sb) then [Violation("seat", NoCode, TableAlreadyBooked)]
    else []
  }

  /** SeatBooking.clean with the intended restaurant rule; the overlap rule
      is unchanged.  id is the seat-booking's own primary key. */
  function SeatBookingClean(s: Store, id: Id, sb: SeatBooking): (errs: seq<Violation>)
    requires ReferencesResolve(s)
    ensures |errs| <= 1
    ensures forall i | 0 <= i < |errs| :: errs[i].rule in {MixedRestaurants, TableAlreadyBooked}
    ensures forall i | 0 <= i < |errs| :: errs[i].rule == TableAlreadyBooked ==> errs[i].field == "seat"
  {
    if MixedRestaurant(s, id, sb) then [Violation(NonField, Invalid, MixedRestaurants)]
    else if TableConflict(s, sb) then [Violation("seat", NoCode, TableAlreadyBooked)]
    else []
  }

  /** The restaurant rule as written fires exactly when seat and booking
      exist, the booking has a derived restaurant, it already holds two or
      more seat-bookings, and the seat stands at another restaurant; so it
      never fires while the booking has fewer than two. */
  lemma AsWrittenRestaurantRule(s: Store, sb: SeatBooking)
    requires ReferencesResolve(s)
    ensures Raises(SeatBookingCleanAsWritten(s, sb), MixedRestaurants) <==>
      && sb.seat in s.seats
      && sb.booking in s.bookings
      && BookingRestaurant(s, sb.booking).Some?
      && |SeatBookingsOf(s.seatBookings, sb.booking)| >= 2
      && SeatRestaurant(s, sb.seat) != BookingRestaurant(s, sb.booking).value
    ensures |SeatBookingsOf(s.seatBookings, sb.booking)| < 2 ==>
      !Raises(SeatBookingCleanAsWritten(s, sb), MixedRestaurants)
  {
    if MixedRestaurantAsWritten(s, sb) {
      assert SeatBookingCleanAsWritten(s, sb)[0].rule == MixedRestaurants;
    }
  }

  /** Every seat-booking of one booking stands at one restaurant. */
  ghost predicate SameRestaurantBookings(s: Store)
    requires ReferencesResolve(s)
  {
    forall x, y | x in s.seatBookings && y in s.seatBookings
                  && s.seatBookings[x].booking == s.seatBookings[y].booking ::
      SeatRestaurant(s, s.seatBookings[x].seat) == SeatRestaurant(s, s.seatBookings[y].seat)
  }

  /** The store of the finding: restaurants 1 and 2 with one table and
      one seat each, booking 1 over [0, 10) holding seat-booking 1 of seat 1
      (at restaurant 1). */
  function FindingStore(): (s: Store)
    ensures ReferencesResolve(s)
  {
    Store(
      map[], map[1 := Restaurant("Ab"), 2 := Restaurant("Cd")],
      map[1 := Table(1, 1, None), 2 := Table(1, 2, None)],
      map[1 := Seat(1, 0), 2 := Seat(2, 0)],
      map[1 := Booking(0, 10)],
      map[1 := SeatBooking(1, 1)],
      map[], map[], {}, {})
  }

  /** The finding: in FindingStore, the as-written clean accepts a second
      seat-booking of booking 1 on seat 2 (at restaurant 2), the booking
      then spans two restaurants, and the corrected clean rejects it. */
  lemma AsWrittenAdmitsMixedBooking()
    ensures var s := FindingStore();
            var sb := SeatBooking(2, 1);
            && SeatBookingCleanAsWritten(s, sb) == []
            && !SameRestaurantBookings(s.(seatBookings := s.seatBookings[2 := sb]))
            && SeatBookingClean(s, 2, sb) != []
  {
    FindingAccepted();
    FindingSplitsBooking();
    FindingRejected();
  }

  lemma FindingAccepted()
    ensures SeatBookingCleanAsWritten(FindingStore(), SeatBooking(2, 1)) == []
  {
    var s := FindingStore();
    var sb := SeatBooking(2, 1);
    assert SeatBookingsOf(s.seatBookings, 1) == {1};
    assert !TableConflict(s, sb);
  }

  lemma FindingSplitsBooking()
    ensures var s := FindingStore();
            !SameRestaurantBookings(s.(seatBookings := s.seatBookings[2 := SeatBooking(2, 1)]))
  {
    var s := FindingStore();
    var s' := s.(seatBookings := s.seatBookings[2 := SeatBooking(2, 1)]);
    assert SeatRestaurant(s', s'.seatBookings[1].seat) != SeatRestaurant(s', s'.seatBookings[2].seat);
  }

  lemma FindingRejected()
    ensures SeatBookingClean(FindingStore(), 2, SeatBooking(2, 1)) != []
  {
    var s := FindingStore();
    var sb := SeatBooking(2, 1);
    assert MixedRestaurant(s, 2, sb) by {
      assert 1 in s.seatBookings && s.seatBookings[1].booking == sb.booking;
    }
  }

  /** Under the invariant, the intended rule is the source's rule without
      its two-seat threshold: a new seat-booking is mixed exactly when the
      booking already has a restaurant and the seat stands elsewhere. */
  lemma IntendedRuleUsesDerivedRestaurant(s: Store, id: Id, sb: SeatBooking)
    requires ReferencesResolve(s) && SameRestaurantBookings(s)
    requires id !in s.seatBookings && sb.seat in s.seats
    ensures MixedRestaurant(s, id, sb) <==>
      && BookingRestaurant(s, sb.booking).Some?
      && SeatRestaurant(s, sb.seat) != BookingRestaurant(s, sb.booking).value
  {
    var r := BookingRestaurant(s, sb.booking);
    assert forall x | x in s.seatBookings && s.seatBookings[x].booking == sb.booking ::
             x in SeatBookingsOf(s.seatBookings, sb.booking);
    if r.Some? {
      var w :| w in SeatBookingsOf(s.seatBookings, sb.booking)
                && SeatRestaurant(s, s.seatBookings[w].seat) == r.value;
      if SeatRestaurant(s, sb.seat) != r.value {
        assert w != id;
        assert MixedRestaurant(s, id, sb);
      }
      if MixedRestaurant(s, id, sb) {
        var x :| x in s.seatBookings && x != id && s.seatBookings[x].booking == sb.booking
                 && SeatRestaurant(s, s.seatBookings[x].seat) != SeatRestaurant(s, sb.seat);
        assert SeatRestaurant(s, s.seatBookings[x].seat) == SeatRestaurant(s, s.seatBookings[w].seat);
      }
    }
  }

  /** For proper windows, the table-overlap condition holds exactly when a
      seat-booking of another booking on the same direct table shares an
      instant with this booking's window. */
  lemma TableConflictIsSharedInstant(s: Store, sb: SeatBooking)
    requires ReferencesResolve(s)
    requires forall b | b in s.bookings :: s.bookings[b].start < s.bookings[b].end
    requires sb.seat in s.seats && sb.booking in s.bookings
    ensures TableConflict(s, sb) <==>
      exists x, instant | x in s.seatBookings ::
        && s.seatBookings[x].booking != sb.booking
        && s.seats[s.seatBookings[x].seat].table == s.seats[sb.seat].table
        && During(s.bookings[s.seatBookings[x].booking], instant)
        && During(s.bookings[sb.booking], instant)
  {
    var mine := s.bookings[sb.booking];
    if TableConflict(s, sb) {
      var x :| x in s.seatBookings
               && s.seatBookings[x].booking != sb.booking
               && s.seats[s.seatBookings[x].seat].table == s.seats[sb.seat].table
               && Overlaps(s.bookings[s.seatBookings[x].booking], mine);
      OverlapIsSharedInstant(s.bookings[s.seatBookings[x].booking], mine);
    }
    if exists x, instant | x in s.seatBookings ::
         && s.seatBookings[x].booking != sb.booking
         && s.seats[s.seatBookings[x].seat].table == s.seats[sb.seat].table
         && During(s.bookings[s.seatBookings[x].booking], instant)
         && During(mine, instant) {
      var x, instant :| x in s.seatBookings
         && s.seatBookings[x].booking != sb.booking
         && s.seats[s.seatBookings[x].seat].table == s.seats[sb.seat].table
         && During(s.bookings[s.seatBookings[x].booking], instant)
         && During(mine, instant);
      OverlapIsSharedInstant(s.bookings[s.seatBookings[x].booking], mine);
      assert TableConflict(s, sb);
    }
  }

  /** The overlap rule of SeatBooking.clean, for proper windows: it rejects
      (on seat, with no code) exactly when the restaurant rule passes and
      a seat-booking of another booking on the same table shares an instant
      with this booking's window. */
  lemma OverlapRuleRejectsSharedInstants(s: Store, id: Id, sb: SeatBooking)
    requires ReferencesResolve(s)
    requires forall b | b in s.bookings :: s.bookings[b].start < s.bookings[b].end
    requires sb.seat in s.seats && sb.booking in s.bookings
    ensures SeatBookingClean(s, id, sb) == [Violation("seat", NoCode, TableAlreadyBooked)] <==>
      && !MixedRestaurant(s, id, sb)
      && exists x, instant | x in s.seatBookings ::
           && s.seatBookings[x].booking != sb.booking
           && s.seats[s.seatBookings[x].seat].table == s.seats[sb.seat].table
           && During(s.bookings[s.seatBookings[x].booking], instant)
           && During(s.bookings[sb.booking], instant)
  {
    TableConflictIsSharedInstant(s, sb);
  }

  /** The same for SeatBooking.clean as written: the overlap error is
      reported exactly when the written restaurant rule passes and another
      booking on the same direct table shares an instant. */
  lemma AsWrittenOverlapRuleRejectsSharedInstants(s: Store, sb: SeatBooking)
    requires ReferencesResolve(s)
    requires forall b | b in s.bookings :: s.bookings[b].start < s.bookings[b].end
    requires sb.seat in s.seats && sb.booking in s.bookings
    ensures SeatBookingCleanAsWritten(s, sb) == [Violation("seat", NoCode, TableAlreadyBooked)] <==>
      && !MixedRestaurantAsWritten(s, sb)
      && exists x, instant | x in s.seatBookings ::
           && s.seatBookings[x].booking != sb.booking
           && s.seats[s.seatBookings[x].seat].table == s.seats[sb.seat].table
           && During(s.bookings[s.seatBookings[x].booking], instant)
           && During(s.bookings[sb.booking], instant)
  {
    TableConflictIsSharedInstant(s, sb);
  }

  /** Windows that only touch (one ends where the other starts) never
      clash, while a proper window starting inside another always does. */
  lemma TouchingWindowsDoNotClash(a: Booking, b: Booking)
    ensures a.end == b.start || b.end == a.start ==> !Overlaps(a, b)
    ensures b.start < b.end && a.start <= b.start < a.end ==> Overlaps(a, b)
  {
  }

  /** Order.clean: the ordered item must be available at the restaurant of
      the seat-booking's table (error on menu_item; the dict form drops its code). */
  function OrderClean(s: Store, o: Order): (errs: seq<Violation>)
    requires ReferencesResolve(s)
    ensures |errs| <= 1
  {
    if && o.seatBooking in s.seatBookings
       && o.menuItem in s.menuItems
       && (o.menuItem, SeatRestaurant(s, s.seatBookings[o.seatBooking].seat)) !in s.availability
    then [Violation("menu_item", NoCode, ItemNotAvailable)]
    else []
  }

  /** An order of existing records is rejected exactly when its item is not
      available at its restaurant; making the item available there admits
      the same order, and availability elsewhere changes nothing. */
  lemma OrderAvailability(s: Store, o: Order, r: Id)
    requires ReferencesResolve(s)
    requires o.seatBooking in s.seatBookings && o.menuItem in s.menuItems
    requires r in s.restaurants
    ensures var home := SeatRestaurant(s, s.seatBookings[o.seatBooking].seat);
            var s' := s.(availability := s.availability + {(o.menuItem, r)});
            && (OrderClean(s, o) != [] <==> (o.menuItem, home) !in s.availability)
            && ReferencesResolve(s')
            && (r == home ==> OrderClean(s', o) == [])
            && (r != home ==> OrderClean(s', o) == OrderClean(s, o))
  {
  }
}

=== FILE: errors.dfy ===
/** Validation outcomes shared by every model of the core.

    A Django validation error is keyed by a field name (or by the non-field
    key) and carries a machine code; the human-readable message is replaced
    here by the rule that fired. */
module Errors {

  datatype Option<+T> = None | Some(value: T)

  /** The machine codes the core's validation errors carry.  NoCode is the
      code-less error: a ValidationError built from a {field: message}
      dict keeps only the messages and drops the code passed with them, and
      a CheckConstraint without violation_error_code reports no code. */
  datatype Code =
    | NoCode
    | Invalid
    | Unique
    | UniqueTogether
    | Blank
    | MaxLength
    | MinLength
    | MinValue
    | MaxValue
    | InvalidChoice

  /** Which rule of the core was broken (stands in for the message text). */
  datatype Rule =
    | Required
    | TooLong
    | TooShort
    | Pattern
    | Taken
    | CoWorkerSameName
    | BelowMinimum
    | AboveMaximum
    | NotAChoice
    | MissingReference
    | WrongType
    | SelfContainer
    | ContainerElsewhere
    | ContainerIsSubTable
    | EndNotAfterStart
    | MixedRestaurants
    | TableAlreadyBooked
    | ItemNotAvailable

  datatype Violation = Violation(field: string, code: Code, rule: Rule)

  /** The key Django files errors under when they belong to no single field. */
  const NonField: string := "__all__"

  /** The outcome of a write: the new state, or the (non-empty) errors found. */
  datatype Result<+T> = Ok(value: T) | Failed(errors: seq<Violation>)

  /** The fields that carry at least one error; full_clean leaves these out
      of its uniqueness checks. */
  function FieldsInError(errs: seq<Violation>): (r: set<string>)
    ensures forall i | 0 <= i < |errs| :: errs[i].field in r
    ensures forall f | f in r :: exists i | 0 <= i < |errs| :: errs[i].field == f
  {
    set i | 0 <= i < |errs| :: errs[i].field
  }

  /** True when some error of errs was raised by rule. */
  predicate Raises(errs: seq<Violation>, rule: Rule)
  {
    exists i | 0 <= i < |errs| :: errs[i].rule == rule
  }

  /** A concatenation raises a rule exactly when one of its parts does. */
  lemma RaisesAppend(a: seq<Violation>, b: seq<Violation>, rule: Rule)
    ensures Raises(a + b, rule) <==> Raises(a, rule) || Raises(b, rule)
  {
    if Raises(a + b, rule) {
      var i :| 0 <= i < |a + b| && (a + b)[i].rule == rule;
      if i >= |a| {
        assert b[i - |a|] == (a + b)[i];
      }
    }
    if Raises(a, rule) {
      var i :| 0 <= i < |a| && a[i].rule == rule;
      assert (a + b)[i] == a[i];
    }
    if Raises(b, rule) {
      var i :| 0 <= i < |b| && b[i].rule == rule;
      assert (a + b)[|a| + i] == b[i];
    }
  }

  /** A later check that is skipped when field is already in error cannot
      fire alongside an earlier rule whose errors are on that field. */
  lemma SkippedAfterFieldError(before: seq<Violation>, later: seq<Violation>, rule: Rule, field: string, skipped: Rule)
    requires rule != skipped
    requires forall i | 0 <= i < |before| :: before[i].rule != skipped
    requires forall i | 0 <= i < |before| :: before[i].rule == rule ==> before[i].field == field
    requires forall i | 0 <= i < |later| :: later[i].rule == skipped
    requires field in FieldsInError(before) ==> later == []
    ensures Raises(before + later, rule) ==> !Raises(before + later, skipped)
  {
    var errs := before + later;
    if Raises(errs, rule) {
      var i :| 0 <= i < |errs| && errs[i].rule == rule;
      assert i < |before| && before[i] == errs[i];
    }
  }
}

=== FILE: models.dfy ===
/** The entities of the booking domain and the store that holds them.

    Every entity lives in a map from its primary key to its record; the two
    many-to-many relations (restaurant employees, menu-item availability)
    are sets of key pairs, as in their join tables. */
module Models {
  import opened Errors

  type Id = nat

  /** A staff account.  The employee id doubles as the login name. */
  datatype User = User(
    employeeId: string,
    firstName: string,
    lastName: string,
    isStaff: bool,
    isSuperuser: bool,
    isActive: bool)

  datatype Restaurant = Restaurant(name: string)

  /** A table of a restaurant; container is the parent container table when
      this table has been merged into a larger one. */
  datatype Table = Table(number: int, restaurant: Id, container: Option<Id>)

  datatype Seat = Seat(table: Id, locationIndex: int)

  /** A booking's time window [start, end), as instants on one clock. */
  datatype Booking = Booking(start: int, end: int)

  /** The join record placing one seat in one booking. */
  datatype SeatBooking = SeatBooking(seat: Id, booking: Id)

  datatype MenuItem = MenuItem(name: string, description: string)

  /** One ordered menu item; course holds the integer choice value. */
  datatype Order = Order(menuItem: Id, seatBooking: Id, course: int, notes: string)

  /** The course choices: appetiser, starter, main course, dessert. */
  const Appetiser: int := 0
  const Starter: int := 1
  const MainCourse: int := 2
  const Dessert: int := 3

  predicate IsCourse(c: int)
  {
    Appetiser <= c <= Dessert
  }

  datatype Store = Store(
    users: map<Id, User>,
    restaurants: map<Id, Restaurant>,
    tables: map<Id, Table>,
    seats: map<Id, Seat>,
    bookings: map<Id, Booking>,
    seatBookings: map<Id, SeatBooking>,
    menuItems: map<Id, MenuItem>,
    orders: map<Id, Order>,
    /** (restaurant, user) pairs: user is an employee of restaurant. */
    employs: set<(Id, Id)>,
    /** (menu item, restaurant) pairs: item is available at restaurant. */
    availability: set<(Id, Id)>)

  /** Every container table a table names exists. */
  ghost predicate ContainersExist(tables: map<Id, Table>)
  {
    forall t | t in tables && tables[t].container.Some? :: tables[t].container.value in tables
  }

  /** rank strictly decreases from every table to its container: the
      witness that following containers always stops. */
  ghost predicate Ranks(tables: map<Id, Table>, rank: map<Id, nat>)
  {
    && tables.Keys <= rank.Keys
    && forall t | t in tables && tables[t].container.Some? ::
         tables[t].container.value in rank && rank[tables[t].container.value] < rank[t]
  }

  /** The container relation is a forest: no table contains itself, directly
      or through other tables. */
  ghost predicate IsForest(tables: map<Id, Table>)
  {
    ContainersExist(tables) && exists rank :: Ranks(tables, rank)
  }

  /** Every foreign key of the store resolves: what the database's
      foreign-key constraints guarantee. */
  ghost predicate ReferencesResolve(s: Store)
  {
    && (forall t | t in s.tables :: s.tables[t].restaurant in s.restaurants)
    && (forall x | x in s.seats :: s.seats[x].table in s.tables)
    && (forall x | x in s.seatBookings ::
          s.seatBookings[x].seat in s.seats && s.seatBookings[x].booking in s.bookings)
    && (forall x | x in s.orders ::
          s.orders[x].menuItem in s.menuItems && s.orders[x].seatBooking in s.seatBookings)
    && (forall p | p in s.employs :: p.0 in s.restaurants && p.1 in s.users)
    && (forall p | p in s.availability :: p.0 in s.menuItems && p.1 in s.restaurants)
  }

  /** The store invariant every operation of the core relies on. */
  ghost predicate WellFormed(s: Store)
  {
    ReferencesResolve(s) && IsForest(s.tables)
  }

  /** The employees of restaurant r. */
  function Employees(s: Store, r: Id): set<Id>
  {
    set p | p in s.employs && p.0 == r :: p.1
  }

  /** The restaurants user u is employed at. */
  function EmployersOf(s: Store, u: Id): set<Id>
  {
    set p | p in s.employs && p.1 == u :: p.0
  }

  /** The restaurant whose table seat x stands at. */
  function SeatRestaurant(s: Store, x: Id): Id
    requires ReferencesResolve(s) && x in s.seats
  {
    s.tables[s.seats[x].table].restaurant
  }

  /** Two users share a full name: the same first and the same last name. */
  predicate SameName(a: User, b: User)
  {
    a.firstName == b.firstName && a.lastName == b.lastName
  }

  /** No two distinct employees of one restaurant share a full name. */
  ghost predicate DistinctCoworkerNames(s: Store)
  {
    forall p, q | p in s.employs && q in s.employs && p.0 == q.0 && p.1 != q.1
                  && p.1 in s.users && q.1 in s.users ::
      !SameName(s.users[p.1], s.users[q.1])
  }

  /** A non-empty finite set of ids has a least element. */
  lemma {:induction false} LeastExists(ids: set<Id>) returns (m: Id)
    requires ids != {}
    ensures m in ids && forall y | y in ids :: m <= y
  {
    var x :| x in ids;
    if ids == {x} {
      m := x;
    } else {
      var rest := ids - {x};
      var lo := LeastExists(rest);
      m := if x < lo then x else lo;
      forall y | y in ids
        ensures m <= y
      {
        if y != x {
          assert y in rest;
        }
      }
    }
  }

  /** A non-empty finite set of ids has a greatest element. */
  lemma {:induction false} GreatestExists(ids: set<Id>) returns (m: Id)
    requires ids != {}
    ensures m in ids && forall y | y in ids :: y <= m
  {
    var x :| x in ids;
    if ids == {x} {
      m := x;
    } else {
      var rest := ids - {x};
      var hi := GreatestExists(rest);
      m := if x > hi then x else hi;
      forall y | y in ids
        ensures y <= m
      {
        if y != x {
          assert y in rest;
        }
      }
    }
  }

  lemma HasExtremes(ids: set<Id>)
    requires ids != {}
    ensures exists m | m in ids :: forall y | y in ids :: m <= y
    ensures exists m | m in ids :: forall y | y in ids :: y <= m
  {
    var lo := LeastExists(ids);
    var hi := GreatestExists(ids);
  }

  /** The least id of a non-empty set (what first() picks, ordering by
      primary key). */
  function MinId(ids: set<Id>): (m: Id)
    requires ids != {}
    ensures m in ids && forall y | y in ids :: m <= y
  {
    HasExtremes(ids);
    var m :| m in ids && forall y | y in ids :: m <= y; m
  }

  /** The id the database's auto-increment key hands out next: one past
      the largest id in use, 1 for an empty table. */
  function NextId(ids: set<Id>): (n: Id)
    ensures n !in ids && n >= 1
    ensures forall y | y in ids :: y < n
  {
    if ids == {} then 1
    else
      HasExtremes(ids);
      var m :| m in ids && forall y | y in ids :: y <= m; m + 1
  }

  /** order lists every element of xs exactly once: the order in which the
      database returns the rows of an unordered query. */
  predicate Enumerates(order: seq<Id>, xs: set<Id>)
  {
    && (forall i | 0 <= i < |order| :: order[i] in xs)
    && (forall y | y in xs :: y in order)
    && (forall i, j | 0 <= i < j < |order| :: order[i] != order[j])
  }
}

=== FILE: persistence.dfy ===
/** CustomBaseModel.save for every model of the core: full_clean runs first
    and the store changes only when it reports nothing.  full_clean is
    modelled in Django's order: field validation, the model's clean(), then
    the uniqueness rules, which skip every field that already has an
    error. */
module Persistence {
  import opened Errors
  import opened Models
  import opened Validators
  import opened Tables
  import opened Bookings

  /** ForeignKey.validate: the referenced row must exist (code "invalid"). */
  function ReferenceErrors<T>(field: string, target: Id, rows: map<Id, T>): (errs: seq<Violation>)
    ensures errs == [] <==> target in rows
    ensures forall i | 0 <= i < |errs| :: errs[i].field == field && errs[i].rule == MissingReference
  {
    if target in rows then [] else [Violation(field, Invalid, MissingReference)]
  }

  // ---------------------------------------------------------------- Restaurant

  function RestaurantFullClean(rec: Restaurant): (errs: seq<Violation>)
    ensures errs == [] <==> IsValidName(rec.name)
  {
    NameErrors("name", rec.name)
  }

  /** Restaurant.save. */
  function SaveRestaurant(s: Store, id: Id, rec: Restaurant): (r: Result<Store>)
    requires WellFormed(s)
    ensures r.Ok? <==> IsValidName(rec.name)
    ensures r.Failed? ==> r.errors != [] && forall i | 0 <= i < |r.errors| :: r.errors[i].field == "name"
    ensures r.Ok? ==> r.value == s.(restaurants := s.restaurants[id := rec]) && WellFormed(r.value)
  {
    var errs := RestaurantFullClean(rec);
    if errs == [] then Ok(s.(restaurants := s.restaurants[id := rec])) else Failed(errs)
  }

  // --------------------------------------------------------------------- Table

  /** Another table of the same restaurant already has rec's number. */
  predicate TableNumberTaken(tables: map<Id, Table>, t: Id, rec: Table)
  {
    exists x | x in tables :: x != t && tables[x].number == rec.number && tables[x].restaurant == rec.restaurant
  }

  /** The unique_restaurant_table_number constraint as a store invariant. */
  ghost predicate UniqueTableNumbers(tables: map<Id, Table>)
  {
    forall x, y | x in tables && y in tables && x != y && tables[x].restaurant == tables[y].restaurant ::
      tables[x].number != tables[y].number
  }

  /** What a table's own fields and Table.clean require of it, stated
      directly. */
  ghost predicate ValidTableFields(s: Store, t: Id, rec: Table)
    requires IsForest(s.tables)
  {
    && 1 <= rec.number <= MaxPositiveInteger
    && rec.restaurant in s.restaurants
    && (rec.container.Some? ==>
          var c := rec.container.value;
          && c in s.tables
          && c != t
          && s.tables[c].restaurant == rec.restaurant
          && !IsSubTableOf(s.tables, c, t))
  }

  /** What a table must satisfy to be stored under id t, stated directly. */
  ghost predicate ValidTable(s: Store, t: Id, rec: Table)
    requires IsForest(s.tables)
  {
    && ValidTableFields(s, t, rec)
    && forall x | x in s.tables && x != t :: !(s.tables[x].number == rec.number && s.tables[x].restaurant == rec.restaurant)
  }

  /** The part of Table.full_clean before the uniqueness check: number (at
      least 1), restaurant and container references, then Table.clean. */
  function TableFieldErrors(s: Store, t: Id, rec: Table): (before: seq<Violation>)
    requires IsForest(s.tables)
    ensures before == [] <==> ValidTableFields(s, t, rec)
    ensures "number" !in FieldsInError(before) ==> 1 <= rec.number <= MaxPositiveInteger
    ensures "restaurant" !in FieldsInError(before) ==> rec.restaurant in s.restaurants
    ensures !Raises(before, Taken)
  {
    TableCleanRejects(s.tables, t, rec);
    var number := PositiveIntegerErrors("number", rec.number, 1);
    var restaurant := ReferenceErrors("restaurant", rec.restaurant, s.restaurants);
    var container := match rec.container
      case None => []
      case Some(c) => ReferenceErrors("container_table", c, s.tables);
    var before := number + restaurant + container + TableClean(s.tables, t, rec);
    assert number != [] ==> before[0] == number[0];
    assert restaurant != [] ==> before[|number|] == restaurant[0];
    RaisesAppend(number, restaurant, Taken);
    RaisesAppend(number + restaurant, container, Taken);
    RaisesAppend(number + restaurant + container, TableClean(s.tables, t, rec), Taken);
    before
  }

  /** Table.full_clean: field validation and Table.clean, then the
      (number, restaurant) constraint, skipped when either field is
      already in error. */
  function TableFullClean(s: Store, t: Id, rec: Table): (errs: seq<Violation>)
    requires IsForest(s.tables)
    ensures errs == [] <==> ValidTable(s, t, rec)
    ensures Raises(errs, Taken) ==> 1 <= rec.number <= MaxPositiveInteger && rec.restaurant in s.restaurants
  {
    var before := TableFieldErrors(s, t, rec);
    var failed := FieldsInError(before);
    var unique := if "number" in failed || "restaurant" in failed || !TableNumberTaken(s.tables, t, rec) then []
                  else [Violation(NonField, UniqueTogether, Taken)];
    before + unique
  }

  /** Table.save: persists rec under id t (a new id inserts, an existing id
      updates) exactly when full_clean passes; an accepted table keeps the
      store well formed, the container relation acyclic included. */
  function SaveTable(s: Store, t: Id, rec: Table): (r: Result<Store>)
    requires WellFormed(s)
    ensures r.Ok? <==> ValidTable(s, t, rec)
    ensures r.Failed? ==> r.errors == TableFullClean(s, t, rec) && r.errors != []
    ensures r.Ok? ==> r.value == s.(tables := s.tables[t := rec]) && WellFormed(r.value)
    ensures r.Ok? && UniqueTableNumbers(s.tables) ==> UniqueTableNumbers(r.value.tables)
  {
    var errs := TableFullClean(s, t, rec);
    if errs == [] then
      AcceptedContainerKeepsForest(s.tables, t, rec);
      Ok(s.(tables := s.tables[t := rec]))
    else Failed(errs)
  }

  // ---------------------------------------------------------------------- Seat

  /** Another seat of rec's table already has rec's location index. */
  predicate SeatIndexTaken(seats: map<Id, Seat>, x: Id, rec: Seat)
  {
    exists y | y in seats :: y != x && seats[y].table == rec.table && seats[y].locationIndex == rec.locationIndex
  }

  /** The unique_table_location_index constraint as a store invariant. */
  ghost predicate UniqueSeatIndex(seats: map<Id, Seat>)
  {
    forall x, y | x in seats && y in seats && x != y && seats[x].table == seats[y].table ::
      seats[x].locationIndex != seats[y].locationIndex
  }

  ghost predicate ValidSeat(s: Store, x: Id, rec: Seat)
  {
    && rec.table in s.tables
    && 0 <= rec.locationIndex <= MaxPositiveInteger
    && forall y | y in s.seats && y != x :: !(s.seats[y].table == rec.table && s.seats[y].locationIndex == rec.locationIndex)
  }

  /** Seat.full_clean: table reference, location index (at least 0), then
      the (table, location_index) constraint. */
  function SeatFullClean(s: Store, x: Id, rec: Seat): (errs: seq<Violation>)
    ensures errs == [] <==> ValidSeat(s, x, rec)
    ensures Raises(errs, Taken) ==> rec.table in s.tables && 0 <= rec.locationIndex <= MaxPositiveInteger
  {
    var before := ReferenceErrors("table", rec.table, s.tables)
      + PositiveIntegerErrors("location_index", rec.locationIndex, 0);
    var failed := FieldsInError(before);
    var table := ReferenceErrors("table", rec.table, s.tables);
    assert table != [] ==> before[0] == table[0];
    assert before != [] && table == [] ==> before[0] == PositiveIntegerErrors("location_index", rec.locationIndex, 0)[0];
    var unique := if "table" in failed || "location_index" in failed || !SeatIndexTaken(s.seats, x, rec) then []
                  else [Violation(NonField, UniqueTogether, Taken)];
    assert Raises(unique, Taken) ==> before == [];
    before + unique
  }

  /** Seat.save. */
  function SaveSeat(s: Store, x: Id, rec: Seat): (r: Result<Store>)
    requires WellFormed(s)
    ensures r.Ok? <==> ValidSeat(s, x, rec)
    ensures r.Failed? ==> r.errors == SeatFullClean(s, x, rec) && r.errors != []
    ensures r.Ok? ==> r.value == s.(seats := s.seats[x := rec]) && WellFormed(r.value)
    ensures r.Ok? && UniqueSeatIndex(s.seats) ==> UniqueSeatIndex(r.value.seats)
  {
    var errs := SeatFullClean(s, x, rec);
    if errs == [] then Ok(s.(seats := s.seats[x := rec])) else Failed(errs)
  }

  // ------------------------------------------------------------------- Booking

  /** Every stored booking ends after it starts. */
  ghost predicate ProperWindows(bookings: map<Id, Booking>)
  {
    forall b | b in bookings :: bookings[b].start < bookings[b].end
  }

  /** Booking.full_clean: only the check_start_end constraint applies; its
      error is a non-field error. */
  function BookingFullClean(rec: Booking): (errs: seq<Violation>)
    ensures errs == [] <==> rec.start < rec.end
    ensures forall i | 0 <= i < |errs| :: errs[i].field == NonField
  {
    if rec.end > rec.start then [] else [Violation(NonField, NoCode, EndNotAfterStart)]
  }

  /** Booking.save.  A new booking has no seat-bookings yet, so it cannot
      break the booking invariants. */
  function SaveBooking(s: Store, b: Id, rec: Booking): (r: Result<Store>)
    requires WellFormed(s)
    ensures r.Ok? <==> rec.start < rec.end
    ensures r.Failed? ==> r.errors == BookingFullClean(rec) && r.errors != []
    ensures r.Ok? ==> r.value == s.(bookings := s.bookings[b := rec]) && WellFormed(r.value)
    ensures r.Ok? && ProperWindows(s.bookings) ==> ProperWindows(r.value.bookings)
    ensures r.Ok? && b !in s.bookings && NoDoubleBooking(s) ==> NoDoubleBooking(r.value)
    ensures r.Ok? && b !in s.bookings && SameRestaurantBookings(s) ==> SameRestaurantBookings(r.value)
  {
    var errs := BookingFullClean(rec);
    if errs == [] then Ok(s.(bookings := s.bookings[b := rec])) else Failed(errs)
  }

  /** No table carries seat-bookings of two different bookings whose windows
      overlap. */
  ghost predicate NoDoubleBooking(s: Store)
    requires ReferencesResolve(s)
  {
    forall x, y | x in s.seatBookings && y in s.seatBookings
                  && s.seatBookings[x].booking != s.seatBookings[y].booking
                  && s.seats[s.seatBookings[x].seat].table == s.seats[s.seatBookings[y].seat].table ::
      !Overlaps(s.bookings[s.seatBookings[x].booking], s.bookings[s.seatBookings[y].booking])
  }

  // --------------------------------------------------------------- SeatBooking

  /** Another seat-booking already pairs rec's seat with rec's booking. */
  predicate SeatBookingTaken(sbs: map<Id, SeatBooking>, id: Id, rec: SeatBooking)
  {
    exists x | x in sbs :: x != id && sbs[x] == rec
  }

  /** The unique_seat_booking constraint as a store invariant. */
  ghost predicate UniqueSeatBookingPairs(sbs: map<Id, SeatBooking>)
  {
    forall x, y | x in sbs && y in sbs && x != y :: sbs[x] != sbs[y]
  }

  /** What a seat-booking's own fields and SeatBooking.clean require of
      it, stated directly. */
  ghost predicate ValidSeatBookingFields(s: Store, id: Id, rec: SeatBooking)
    requires ReferencesResolve(s)
  {
    && rec.seat in s.seats
    && rec.booking in s.bookings
    && !MixedRestaurant(s, id, rec)
    && !TableConflict(s, rec)
  }

  ghost predicate ValidSeatBooking(s: Store, id: Id, rec: SeatBooking)
    requires ReferencesResolve(s)
  {
    && ValidSeatBookingFields(s, id, rec)
    && forall x | x in s.seatBookings && x != id :: s.seatBookings[x] != rec
  }

  /** The part of SeatBooking.full_clean before the (seat, booking)
      constraint: seat and booking references, then SeatBooking.clean with
      the intended restaurant rule.  The overlap error is on seat. */
  function SeatBookingFieldErrors(s: Store, id: Id, rec: SeatBooking): (before: seq<Violation>)
    requires ReferencesResolve(s)
    ensures before == [] <==> ValidSeatBookingFields(s, id, rec)
    ensures "seat" !in FieldsInError(before) ==> rec.seat in s.seats
    ensures "booking" !in FieldsInError(before) ==> rec.booking in s.bookings
    ensures !Raises(before, Taken)
    ensures forall i | 0 <= i < |before| :: before[i].rule == TableAlreadyBooked ==> before[i].field == "seat"
  {
    var seat := ReferenceErrors("seat", rec.seat, s.seats);
    var booking := ReferenceErrors("booking", rec.booking, s.bookings);
    var clean := SeatBookingClean(s, id, rec);
    var before := seat + booking + clean;
    assert seat != [] ==> before[0] == seat[0];
    assert booking != [] ==> before[|seat|] == booking[0];
    RaisesAppend(seat, booking, Taken);
    RaisesAppend(seat + booking, clean, Taken);
    before
  }

  /** SeatBooking.full_clean: field validation and SeatBooking.clean, then
      the (seat, booking) constraint, skipped when either field is already
      in error. */
  function SeatBookingFullClean(s: Store, id: Id, rec: SeatBooking): (errs: seq<Violation>)
    requires ReferencesResolve(s)
    ensures errs == [] <==> ValidSeatBooking(s, id, rec)
    ensures Raises(errs, Taken) ==> rec.seat in s.seats && rec.booking in s.bookings
    ensures Raises(errs, TableAlreadyBooked) ==> !Raises(errs, Taken)
  {
    var before := SeatBookingFieldErrors(s, id, rec);
    var failed := FieldsInError(before);
    var unique := if "seat" in failed || "booking" in failed || !SeatBookingTaken(s.seatBookings, id, rec) then []
                  else [Violation(NonField, UniqueTogether, Taken)];
    SkippedAfterFieldError(before, unique, TableAlreadyBooked, "seat", Taken);
    before + unique
  }

  /** SeatBooking.save.  An accepted seat-booking keeps every booking at one
      restaurant, keeps tables free of overlapping bookings and keeps
      (seat, booking) pairs unique. */
  function SaveSeatBooking(s: Store, id: Id, rec: SeatBooking): (r: Result<Store>)
    requires WellFormed(s)
    ensures r.Ok? <==> ValidSeatBooking(s, id, rec)
    ensures r.Failed? ==> r.errors == SeatBookingFullClean(s, id, rec) && r.errors != []
    ensures r.Ok? ==> r.value == s.(seatBookings := s.seatBookings[id := rec]) && WellFormed(r.value)
    ensures r.Ok? && UniqueSeatBookingPairs(s.seatBookings) ==> UniqueSeatBookingPairs(r.value.seatBookings)
  {
    var errs := SeatBookingFullClean(s, id, rec);
    if errs == [] then Ok(s.(seatBookings := s.seatBookings[id := rec])) else Failed(errs)
  }

  /** An accepted seat-booking keeps tables free of overlapping bookings. */
  lemma SeatBookingKeepsTablesFree(s: Store, id: Id, rec: SeatBooking)
    requires WellFormed(s) && SaveSeatBooking(s, id, rec).Ok?
    requires NoDoubleBooking(s)
    ensures NoDoubleBooking(SaveSeatBooking(s, id, rec).value)
  {
    var s' := SaveSeatBooking(s, id, rec).value;
    forall x, y | x in s'.seatBookings && y in s'.seatBookings
                  && s'.seatBookings[x].booking != s'.seatBookings[y].booking
                  && s'.seats[s'.seatBookings[x].seat].table == s'.seats[s'.seatBookings[y].seat].table
      ensures !Overlaps(s'.bookings[s'.seatBookings[x].booking], s'.bookings[s'.seatBookings[y].booking])
    {
      if x == id {
        assert y in s.seatBookings;
      } else if y == id {
        assert x in s.seatBookings;
      }
    }
  }

  /** With the intended restaurant rule, an accepted seat-booking keeps
      every booking at a single restaurant. */
  lemma SeatBookingKeepsOneRestaurant(s: Store, id: Id, rec: SeatBooking)
    requires WellFormed(s) && SaveSeatBooking(s, id, rec).Ok?
    requires SameRestaurantBookings(s)
    ensures SameRestaurantBookings(SaveSeatBooking(s, id, rec).value)
  {
    var s' := SaveSeatBooking(s, id, rec).value;
    forall x, y | x in s'.seatBookings && y in s'.seatBookings
                  && s'.seatBookings[x].booking == s'.seatBookings[y].booking
      ensures SeatRestaurant(s', s'.seatBookings[x].seat) == SeatRestaurant(s', s'.seatBookings[y].seat)
    {
      if x != id && y != id {
        assert SeatRestaurant(s, s.seatBookings[x].seat) == SeatRestaurant(s, s.seatBookings[y].seat);
      } else if x != id {
        assert !MixedRestaurant(s, id, rec);
        assert SeatRestaurant(s, s.seatBookings[x].seat) == SeatRestaurant(s, rec.seat);
      } else if y != id {
        assert !MixedRestaurant(s, id, rec);
        assert SeatRestaurant(s, s.seatBookings[y].seat) == SeatRestaurant(s, rec.seat);
      }
    }
  }

  // --------------------------------------------------------------------- Order

  /** Every order's item is available at the restaurant of its seat. */
  ghost predicate OrdersAvailable(s: Store)
    requires ReferencesResolve(s)
  {
    forall x | x in s.orders ::
      (s.orders[x].menuItem, SeatRestaurant(s, s.seatBookings[s.orders[x].seatBooking].seat)) in s.availability
  }

  ghost predicate ValidOrder(s: Store, o: Order)
    requires ReferencesResolve(s)
  {
    && o.menuItem in s.menuItems
    && o.seatBooking in s.seatBookings
    && IsCourse(o.course)
    && (o.menuItem, SeatRestaurant(s, s.seatBookings[o.seatBooking].seat)) in s.availability
  }

  /** Order.full_clean: menu-item and seat-booking references, the course
      choice (checked before, and instead of, the integer validators), then
      Order.clean.  Notes are free text. */
  function OrderFullClean(s: Store, o: Order): (errs: seq<Violation>)
    requires ReferencesResolve(s)
    ensures errs == [] <==> ValidOrder(s, o)
    ensures !IsCourse(o.course) ==> exists i | 0 <= i < |errs| :: errs[i] == Violation("course", InvalidChoice, NotAChoice)
  {
    var course := if IsCourse(o.course) then [] else [Violation("course", InvalidChoice, NotAChoice)];
    var all := ReferenceErrors("menu_item", o.menuItem, s.menuItems)
      + ReferenceErrors("seat_booking", o.seatBooking, s.seatBookings)
      + course
      + OrderClean(s, o);
    assert !IsCourse(o.course) ==>
      all[|ReferenceErrors("menu_item", o.menuItem, s.menuItems) + ReferenceErrors("seat_booking", o.seatBooking, s.seatBookings)|] == course[0];
    all
  }

  /** Order.save. */
  function SaveOrder(s: Store, id: Id, o: Order): (r: Result<Store>)
    requires WellFormed(s)
    ensures r.Ok? <==> ValidOrder(s, o)
    ensures r.Failed? ==> r.errors == OrderFullClean(s, o) && r.errors != []
    ensures r.Ok? ==> r.value == s.(orders := s.orders[id := o]) && WellFormed(r.value)
    ensures r.Ok? && OrdersAvailable(s) ==> OrdersAvailable(r.value)
  {
    var errs := OrderFullClean(s, o);
    if errs == [] then Ok(s.(orders := s.orders[id := o])) else Failed(errs)
  }

  // ------------------------------------------------------------------ MenuItem

  /** Another menu item already has rec's name. */
  predicate MenuNameTaken(items: map<Id, MenuItem>, id: Id, rec: MenuItem)
  {
    exists x | x in items :: x != id && items[x].name == rec.name
  }

  ghost predicate UniqueMenuNames(items: map<Id, MenuItem>)
  {
    forall x, y | x in items && y in items && x != y :: items[x].name != items[y].name
  }

  ghost predicate ValidMenuItem(s: Store, id: Id, rec: MenuItem)
  {
    IsValidName(rec.name) && forall x | x in s.menuItems && x != id :: s.menuItems[x].name != rec.name
  }

  /** MenuItem.full_clean: the name validators, then name uniqueness (on
      the name field, code "unique"), skipped when the name already failed.
      The description is free text. */
  function MenuItemFullClean(s: Store, id: Id, rec: MenuItem): (errs: seq<Violation>)
    ensures errs == [] <==> ValidMenuItem(s, id, rec)
    ensures Raises(errs, Taken) ==> IsValidName(rec.name)
    ensures forall i | 0 <= i < |errs| :: errs[i].field == "name"
  {
    var name := NameErrors("name", rec.name);
    assert name != [] ==> name[0].field == "name";
    name + (if "name" in FieldsInError(name) || !MenuNameTaken(s.menuItems, id, rec) then []
            else [Violation("name", Unique, Taken)])
  }

  /** MenuItem.save. */
  function SaveMenuItem(s: Store, id: Id, rec: MenuItem): (r: Result<Store>)
    requires WellFormed(s)
    ensures r.Ok? <==> ValidMenuItem(s, id, rec)
    ensures r.Failed? ==> r.errors == MenuItemFullClean(s, id, rec) && r.errors != []
    ensures r.Ok? ==> r.value == s.(menuItems := s.menuItems[id := rec]) && WellFormed(r.value)
    ensures r.Ok? && UniqueMenuNames(s.menuItems) ==> UniqueMenuNames(r.value.menuItems)
  {
    var errs := MenuItemFullClean(s, id, rec);
    if errs == [] then Ok(s.(menuItems := s.menuItems[id := rec])) else Failed(errs)
  }

  // ---------------------------------------------------------------------- User

  /** What User.clean changes before it checks anything: a superuser
      becomes staff, and an empty employee id is replaced by a freshly
      generated one. */
  function CleanedUser(rec: User, freshId: string): (c: User)
    ensures rec.isSuperuser ==> c.isStaff
    ensures c.employeeId == (if rec.employeeId == "" then freshId else rec.employeeId)
    ensures SameName(c, rec) && c.isSuperuser == rec.isSuperuser && c.isActive == rec.isActive
  {
    rec.(isStaff := rec.isStaff || rec.isSuperuser,
         employeeId := if rec.employeeId == "" then freshId else rec.employeeId)
  }

  /** A co-worker of user u (an employee, other than u, of a restaurant u is
      employed at) already has rec's full name. */
  predicate CoWorkerClash(s: Store, u: Id, rec: User)
  {
    exists r, v | r in EmployersOf(s, u) && v in Employees(s, r) :: v != u && v in s.users && SameName(s.users[v], rec)
  }

  /** Another user already has employee id e. */
  predicate EmployeeIdTaken(users: map<Id, User>, u: Id, e: string)
  {
    exists v | v in users :: v != u && users[v].employeeId == e
  }

  ghost predicate UniqueEmployeeIds(users: map<Id, User>)
  {
    forall x, y | x in users && y in users && x != y :: users[x].employeeId != users[y].employeeId
  }

  /** Every stored employee id is six digits. */
  ghost predicate EmployeeIdsValid(users: map<Id, User>)
  {
    forall x | x in users :: IsValidEmployeeId(users[x].employeeId)
  }

  ghost predicate ValidUser(s: Store, u: Id, rec: User, freshId: string)
  {
    && (rec.employeeId == "" || IsValidEmployeeId(rec.employeeId))
    && 1 <= |rec.firstName| <= PersonNameMaxLength
    && 1 <= |rec.lastName| <= PersonNameMaxLength
    && (forall r, v | r in EmployersOf(s, u) && v in Employees(s, r) && v != u && v in s.users ::
          !SameName(s.users[v], rec))
    && forall v | v in s.users && v != u :: s.users[v].employeeId != CleanedUser(rec, freshId).employeeId
  }

  /** User.full_clean: employee id and name fields, User.clean (which fills
      in the employee id and rejects a co-worker's full name on both name
      fields), then employee-id uniqueness on the cleaned id.  freshId
      stands for generate_employee_id's value: the first six digits of a
      random 128-bit number. */
  function UserFullClean(s: Store, u: Id, rec: User, freshId: string): (errs: seq<Violation>)
    requires IsValidEmployeeId(freshId)
    ensures errs == [] <==> ValidUser(s, u, rec, freshId)
    ensures CoWorkerClash(s, u, rec) ==>
      && Violation("first_name", NoCode, CoWorkerSameName) in errs
      && Violation("last_name", NoCode, CoWorkerSameName) in errs
  {
    var fields := EmployeeIdErrors(rec.employeeId)
      + PersonNameErrors("first_name", rec.firstName)
      + PersonNameErrors("last_name", rec.lastName);
    var clean := if CoWorkerClash(s, u, rec) then
        [Violation("first_name", NoCode, CoWorkerSameName), Violation("last_name", NoCode, CoWorkerSameName)]
      else [];
    var before := fields + clean;
    assert EmployeeIdErrors(rec.employeeId) != [] ==> before[0] == EmployeeIdErrors(rec.employeeId)[0];
    assert clean != [] ==> before[|fields|] == clean[0] && before[|fields| + 1] == clean[1];
    var unique := if "employee_id" in FieldsInError(before)
                     || !EmployeeIdTaken(s.users, u, CleanedUser(rec, freshId).employeeId) then []
                  else [Violation("employee_id", Unique, Taken)];
    before + unique
  }

  /** User.save: stores the cleaned user.  A saved user has a six-digit
      employee id, is staff whenever it is a superuser, and keeps full
      names distinct among co-workers and employee ids unique. */
  function SaveUser(s: Store, u: Id, rec: User, freshId: string): (r: Result<Store>)
    requires WellFormed(s) && IsValidEmployeeId(freshId)
    ensures r.Ok? <==> ValidUser(s, u, rec, freshId)
    ensures r.Failed? ==> r.errors == UserFullClean(s, u, rec, freshId) && r.errors != []
    ensures r.Ok? ==> r.value == s.(users := s.users[u := CleanedUser(rec, freshId)]) && WellFormed(r.value)
    ensures r.Ok? ==> IsValidEmployeeId(r.value.users[u].employeeId)
                      && (rec.isSuperuser ==> r.value.users[u].isStaff)
    ensures r.Ok? && EmployeeIdsValid(s.users) ==> EmployeeIdsValid(r.value.users)
    ensures r.Ok? && UniqueEmployeeIds(s.users) ==> UniqueEmployeeIds(r.value.users)
  {
    var errs := UserFullClean(s, u, rec, freshId);
    if errs == [] then Ok(s.(users := s.users[u := CleanedUser(rec, freshId)])) else Failed(errs)
  }

  /** An accepted user keeps full names distinct among the employees of
      every restaurant. */
  lemma UserSaveKeepsCoworkerNames(s: Store, u: Id, rec: User, freshId: string)
    requires WellFormed(s) && IsValidEmployeeId(freshId) && SaveUser(s, u, rec, freshId).Ok?
    requires DistinctCoworkerNames(s)
    ensures DistinctCoworkerNames(SaveUser(s, u, rec, freshId).value)
  {
    var s' := SaveUser(s, u, rec, freshId).value;
    forall p, q | p in s'.employs && q in s'.employs && p.0 == q.0 && p.1 != q.1
                  && p.1 in s'.users && q.1 in s'.users
      ensures !SameName(s'.users[p.1], s'.users[q.1])
    {
      if p.1 == u {
        assert p.0 in EmployersOf(s, u) && q.1 in Employees(s, p.0);
      } else if q.1 == u {
        assert q.0 in EmployersOf(s, u) && p.1 in Employees(s, q.0);
      }
    }
  }
}

=== FILE: signals.dfy ===
/** user_added_to_restaurant, the handler of the employees relation's
    m2m_changed signal: after employees are added, every newly added member
    whose full name another current member already has is removed again. */
module Signals {
  import opened Models

  /** The m2m_changed actions. */
  datatype Action = PreAdd | PostAdd | PreRemove | PostRemove | PreClear | PostClear

  /** The object whose relation changed: a restaurant for
      restaurant.employees.add, a user for user.restaurants.add.  The
      handler reads the user instance's names from the object in memory,
      which is person (it may hold name changes not yet saved). */
  datatype Instance = RestaurantInstance(restaurant: Id) | UserInstance(user: Id, person: User)

  /** Some employee of r other than u has person's full name. */
  predicate NameTaken(s: Store, r: Id, u: Id, person: User)
  {
    exists v | v in Employees(s, r) :: v != u && v in s.users && SameName(s.users[v], person)
  }

  /** Some employee of r other than u has u's stored full name. */
  predicate HasNamesake(s: Store, r: Id, u: Id)
    requires u in s.users
  {
    NameTaken(s, r, u, s.users[u])
  }

  /** Every element of a sequence, as a set. */
  function Elements(order: seq<Id>): (xs: set<Id>)
    ensures forall y :: y in xs <==> y in order
  {
    set i | 0 <= i < |order| :: order[i]
  }

  /** The forward loop: for each added user u of restaurant r, in order,
      u leaves r if a namesake is still employed there. */
  function RemoveNamesakes(s: Store, r: Id, order: seq<Id>): (s': Store)
    requires forall i | 0 <= i < |order| :: order[i] in s.users
    ensures s' == s.(employs := s'.employs)
    ensures s'.employs <= s.employs
    ensures forall p | p in s.employs && p !in s'.employs :: p.0 == r && p.1 in order
    decreases |order|
  {
    if order == [] then s
    else
      var u := order[0];
      var next := if HasNamesake(s, r, u) then s.(employs := s.employs - {(r, u)}) else s;
      RemoveNamesakes(next, r, order[1..])
  }

  /** The reverse loop: for each restaurant r user u was added to, in
      order, u leaves r if another employee there has the full name of the
      in-memory user object person. */
  function LeaveNamesakeRestaurants(s: Store, u: Id, person: User, order: seq<Id>): (s': Store)
    ensures s' == s.(employs := s'.employs)
    ensures s'.employs <= s.employs
    ensures forall p | p in s.employs && p !in s'.employs :: p.1 == u && p.0 in order
    decreases |order|
  {
    if order == [] then s
    else
      var r := order[0];
      var next := if NameTaken(s, r, u, person) then s.(employs := s.employs - {(r, u)}) else s;
      LeaveNamesakeRestaurants(next, u, person, order[1..])
  }

  /** user_added_to_restaurant.  order is the order in which the database
      returns the rows whose ids are in pkSet.  Only post_add acts, and then
      only on memberships of pkSet's members; the other actions, and the
      instance/direction pairs Django never sends, change nothing. */
  function UserAddedToRestaurant(s: Store, instance: Instance, action: Action, reverse: bool,
                                 pkSet: set<Id>, order: seq<Id>): (s': Store)
    requires forall i | 0 <= i < |order| :: order[i] in pkSet
    requires instance.RestaurantInstance? && !reverse ==> forall i | 0 <= i < |order| :: order[i] in s.users
    ensures action != PostAdd ==> s' == s
    ensures s' == s.(employs := s'.employs) && s'.employs <= s.employs
    ensures forall p | p in s.employs && p !in s'.employs ::
      || (instance == RestaurantInstance(p.0) && !reverse && p.1 in pkSet)
      || (instance.UserInstance? && instance.user == p.1 && reverse && p.0 in pkSet)
  {
    if action != PostAdd then s
    else
      match instance
      case RestaurantInstance(r) => if reverse then s else RemoveNamesakes(s, r, order)
      case UserInstance(u, person) => if reverse then LeaveNamesakeRestaurants(s, u, person, order) else s
  }

  /** restaurant.employees.add(*us): the missing memberships are inserted,
      then post_add is sent with exactly the newly added users as pkSet
      (order enumerates them). */
  function AddEmployees(s: Store, r: Id, us: set<Id>, order: seq<Id>): (s': Store)
    requires r in s.restaurants && us <= s.users.Keys
    requires Enumerates(order, us - Employees(s, r))
    ensures s' == s.(employs := s'.employs)
    ensures s.employs <= s'.employs
    ensures forall p | p in s'.employs && p !in s.employs :: p.0 == r && p.1 in us
  {
    var added := us - Employees(s, r);
    var s1 := s.(employs := s.employs + set u | u in us :: (r, u));
    UserAddedToRestaurant(s1, RestaurantInstance(r), PostAdd, false, added, order)
  }

  /** user.restaurants.add(*rs) on the in-memory user object person, stored
      under u: the reverse direction. */
  function AddRestaurantsToUser(s: Store, u: Id, person: User, rs: set<Id>, order: seq<Id>): (s': Store)
    requires u in s.users && rs <= s.restaurants.Keys
    requires Enumerates(order, rs - EmployersOf(s, u))
    ensures s' == s.(employs := s'.employs)
    ensures s.employs <= s'.employs
    ensures forall p | p in s'.employs && p !in s.employs :: p.1 == u && p.0 in rs
  {
    var added := rs - EmployersOf(s, u);
    var s1 := s.(employs := s.employs + set r | r in rs :: (r, u));
    UserAddedToRestaurant(s1, UserInstance(u, person), PostAdd, true, added, order)
  }

  // ------------------------------------------------------------ forward sweep

  /** A user of order whose namesake stays employed at r (the namesake is
      not in order, so the sweep never removes it) leaves r. */
  lemma {:induction false} SweepRemovesNamesake(s: Store, r: Id, order: seq<Id>, u: Id, v: Id)
    requires forall i | 0 <= i < |order| :: order[i] in s.users
    requires u in order && v !in order && u != v
    requires (r, v) in s.employs && v in s.users && u in s.users && SameName(s.users[v], s.users[u])
    ensures (r, u) !in RemoveNamesakes(s, r, order).employs
    decreases |order|
  {
    var x := order[0];
    var next := if HasNamesake(s, r, x) then s.(employs := s.employs - {(r, x)}) else s;
    if x == u {
      assert v in Employees(s, r);
    } else {
      assert (r, v) in next.employs;
      SweepRemovesNamesake(next, r, order[1..], u, v);
    }
  }

  /** Adding a user to a restaurant that already employs someone with the
      same full name leaves the user not employed there. */
  lemma AddingNamesakeFails(s: Store, r: Id, us: set<Id>, order: seq<Id>, u: Id, v: Id)
    requires r in s.restaurants && us <= s.users.Keys
    requires Enumerates(order, us - Employees(s, r))
    requires u in us && u !in Employees(s, r)
    requires v in Employees(s, r) && v in s.users && v != u && SameName(s.users[v], s.users[u])
    ensures (r, u) !in AddEmployees(s, r, us, order).employs
  {
    var s1 := s.(employs := s.employs + set w | w in us :: (r, w));
    assert v !in order;
    SweepRemovesNamesake(s1, r, order, u, v);
  }

  /** A member of order with no namesake at r when the sweep starts is never
      removed: memberships only shrink during the sweep. */
  lemma {:induction false} SweepKeepsUnmatched(s: Store, r: Id, order: seq<Id>, u: Id)
    requires forall i | 0 <= i < |order| :: order[i] in s.users
    requires u in s.users && (r, u) in s.employs && !HasNamesake(s, r, u)
    ensures (r, u) in RemoveNamesakes(s, r, order).employs
    decreases |order|
  {
    if order != [] {
      var x := order[0];
      var next := if HasNamesake(s, r, x) then s.(employs := s.employs - {(r, x)}) else s;
      assert Employees(next, r) <= Employees(s, r);
      SweepKeepsUnmatched(next, r, order[1..], u);
    }
  }

  /** A newly added user whose full name no other employee of r (old or
      newly added) has stays employed. */
  lemma UnmatchedUserStays(s: Store, r: Id, us: set<Id>, order: seq<Id>, u: Id)
    requires r in s.restaurants && us <= s.users.Keys
    requires Enumerates(order, us - Employees(s, r))
    requires u in us
    requires forall v | v in Employees(s, r) + us && v != u && v in s.users :: !SameName(s.users[v], s.users[u])
    ensures (r, u) in AddEmployees(s, r, us, order).employs
  {
    var s1 := s.(employs := s.employs + set w | w in us :: (r, w));
    assert Employees(s1, r) <= Employees(s, r) + us;
    if u !in Employees(s, r) {
      SweepKeepsUnmatched(s1, r, order, u);
    }
  }

  /** Running the forward loop over order is running it over the first i
      users, then over the rest. */
  lemma {:induction false} RemoveNamesakesSplit(s: Store, r: Id, order: seq<Id>, i: nat)
    requires forall k | 0 <= k < |order| :: order[k] in s.users
    requires i <= |order|
    ensures RemoveNamesakes(s, r, order) == RemoveNamesakes(RemoveNamesakes(s, r, order[..i]), r, order[i..])
    decreases i
  {
    if i == 0 {
      assert order[..0] == [] && order[0..] == order;
    } else {
      var u := order[0];
      var next := if HasNamesake(s, r, u) then s.(employs := s.employs - {(r, u)}) else s;
      RemoveNamesakesSplit(next, r, order[1..], i - 1);
      assert order[..i][0] == u && order[..i][1..] == order[1..][..i - 1];
      assert order[1..][i - 1..] == order[i..];
    }
  }

  /** The forward loop keeps the i-th user it visits exactly when that user
      was a member and, at the moment the loop checks it (after the earlier
      users were dealt with), no other employee of r has its full name. */
  lemma SweepDecidesAtCheckTime(s: Store, r: Id, order: seq<Id>, i: nat)
    requires forall k | 0 <= k < |order| :: order[k] in s.users
    requires forall k, j | 0 <= k < j < |order| :: order[k] != order[j]
    requires i < |order|
    ensures (r, order[i]) in RemoveNamesakes(s, r, order).employs <==>
            (r, order[i]) in s.employs && !HasNamesake(RemoveNamesakes(s, r, order[..i]), r, order[i])
  {
    var u := order[i];
    var mid := RemoveNamesakes(s, r, order[..i]);
    RemoveNamesakesSplit(s, r, order, i);
    assert u !in order[..i];
    var next := if HasNamesake(mid, r, u) then mid.(employs := mid.employs - {(r, u)}) else mid;
    assert order[i..][0] == u && order[i..][1..] == order[i + 1..];
    assert u !in order[i + 1..];
    assert RemoveNamesakes(mid, r, order[i..]) == RemoveNamesakes(next, r, order[i + 1..]);
  }

  /** Of two visited members sharing a full name that nobody else at r
      has, the one checked first leaves and the one checked later stays:
      by the time the later one is checked, its namesake is gone. */
  lemma SameNamedPairKeepsLater(s: Store, r: Id, order: seq<Id>, i: nat, j: nat)
    requires forall k | 0 <= k < |order| :: order[k] in s.users
    requires forall k, l | 0 <= k < l < |order| :: order[k] != order[l]
    requires i < j < |order|
    requires (r, order[i]) in s.employs && (r, order[j]) in s.employs
    requires SameName(s.users[order[i]], s.users[order[j]])
    requires forall w | w in Employees(s, r) && w in s.users && w != order[i] && w != order[j] ::
      !SameName(s.users[w], s.users[order[j]])
    ensures (r, order[i]) !in RemoveNamesakes(s, r, order).employs
    ensures (r, order[j]) in RemoveNamesakes(s, r, order).employs
  {
    var u, v := order[i], order[j];
    var midI := RemoveNamesakes(s, r, order[..i]);
    assert v !in order[..i];
    assert (r, v) in midI.employs;
    assert v in Employees(midI, r);
    SweepDecidesAtCheckTime(s, r, order, i);
    var pre := order[..j];
    SweepDecidesAtCheckTime(s, r, pre, i);
    assert pre[..i] == order[..i];
    var midJ := RemoveNamesakes(s, r, pre);
    assert (r, u) !in midJ.employs;
    forall w | w in Employees(midJ, r) && w != v && w in midJ.users
      ensures !SameName(midJ.users[w], midJ.users[v])
    {
      assert (r, w) in s.employs && w in Employees(s, r);
    }
    SweepDecidesAtCheckTime(s, r, order, j);
  }

  /** restaurant.employees.add keeps the i-th newly added user exactly when,
      at the moment the handler checks it, no other employee of r has its
      full name. */
  lemma AddEmployeesDecidesAtCheckTime(s: Store, r: Id, us: set<Id>, order: seq<Id>, i: nat)
    requires r in s.restaurants && us <= s.users.Keys
    requires Enumerates(order, us - Employees(s, r))
    requires i < |order|
    ensures var s1 := s.(employs := s.employs + set w | w in us :: (r, w));
            (r, order[i]) in AddEmployees(s, r, us, order).employs <==>
            !HasNamesake(RemoveNamesakes(s1, r, order[..i]), r, order[i])
  {
    var s1 := s.(employs := s.employs + set w | w in us :: (r, w));
    assert (r, order[i]) in s1.employs;
    SweepDecidesAtCheckTime(s1, r, order, i);
  }

  /** Every pair of same-named co-workers of s is at restaurant r and
      involves a member of pending. */
  ghost predicate CollisionsPending(s: Store, r: Id, pending: set<Id>)
  {
    forall p, q | p in s.employs && q in s.employs && p.0 == q.0 && p.1 != q.1
                  && p.1 in s.users && q.1 in s.users && SameName(s.users[p.1], s.users[q.1]) ::
      p.0 == r && (p.1 in pending || q.1 in pending)
  }

  /** One step of the sweep settles the collisions of the user it visits:
      either that user leaves r, or no co-worker there shares its name. */
  lemma SweepStep(s: Store, r: Id, pending: set<Id>, u: Id)
    requires u in s.users
    requires CollisionsPending(s, r, pending)
    ensures var next := if HasNamesake(s, r, u) then s.(employs := s.employs - {(r, u)}) else s;
            CollisionsPending(next, r, pending - {u})
  {
    var next := if HasNamesake(s, r, u) then s.(employs := s.employs - {(r, u)}) else s;
    forall p, q | p in next.employs && q in next.employs && p.0 == q.0 && p.1 != q.1
                  && p.1 in next.users && q.1 in next.users && SameName(next.users[p.1], next.users[q.1])
      ensures p.0 == r && (p.1 in pending - {u} || q.1 in pending - {u})
    {
      assert p.1 in Employees(s, p.0) && q.1 in Employees(s, q.0);
    }
  }

  /** The sweep settles every pending collision, whatever the order. */
  lemma {:induction false} SweepClearsCollisions(s: Store, r: Id, order: seq<Id>)
    requires forall i | 0 <= i < |order| :: order[i] in s.users
    requires forall i, j | 0 <= i < j < |order| :: order[i] != order[j]
    requires CollisionsPending(s, r, Elements(order))
    ensures DistinctCoworkerNames(RemoveNamesakes(s, r, order))
    decreases |order|
  {
    if order == [] {
      return;
    }
    var u := order[0];
    var rest := order[1..];
    assert Elements(rest) == Elements(order) - {u} by {
      forall i | 0 <= i < |rest|
        ensures rest[i] != u
      {
        assert rest[i] == order[i + 1];
      }
    }
    var next := if HasNamesake(s, r, u) then s.(employs := s.employs - {(r, u)}) else s;
    SweepStep(s, r, Elements(order), u);
    SweepClearsCollisions(next, r, rest);
  }

  /** Adding employees keeps full names distinct among co-workers, for any
      order of the added users. */
  lemma AddEmployeesKeepsNamesDistinct(s: Store, r: Id, us: set<Id>, order: seq<Id>)
    requires r in s.restaurants && us <= s.users.Keys
    requires Enumerates(order, us - Employees(s, r))
    requires DistinctCoworkerNames(s)
    ensures DistinctCoworkerNames(AddEmployees(s, r, us, order))
  {
    var s1 := s.(employs := s.employs + set w | w in us :: (r, w));
    assert Elements(order) == us - Employees(s, r);
    forall p, q | p in s1.employs && q in s1.employs && p.0 == q.0 && p.1 != q.1
                  && p.1 in s1.users && q.1 in s1.users && SameName(s1.users[p.1], s1.users[q.1])
      ensures p.0 == r && (p.1 in Elements(order) || q.1 in Elements(order))
    {
      if p !in s.employs {
        assert p.1 !in Employees(s, r);
      } else if q !in s.employs {
        assert q.1 !in Employees(s, r);
      }
    }
    SweepClearsCollisions(s1, r, order);
  }

  // ------------------------------------------------------------ reverse sweep

  /** The reverse sweep removes u from exactly the restaurants of order
      where someone else with person's full name is employed when the sweep
      starts: one restaurant's removal never changes another's employees. */
  lemma {:induction false} LeaveExactly(s: Store, u: Id, person: User, order: seq<Id>)
    requires forall i, j | 0 <= i < j < |order| :: order[i] != order[j]
    ensures LeaveNamesakeRestaurants(s, u, person, order).employs
            == s.employs - set r | r in order && NameTaken(s, r, u, person) :: (r, u)
    decreases |order|
  {
    if order == [] {
      return;
    }
    var r0 := order[0];
    var rest := order[1..];
    var next := if NameTaken(s, r0, u, person) then s.(employs := s.employs - {(r0, u)}) else s;
    LeaveExactly(next, u, person, rest);
    forall r | r in rest
      ensures NameTaken(next, r, u, person) == NameTaken(s, r, u, person)
    {
      assert r != r0;
      assert Employees(next, r) == Employees(s, r);
    }
  }

  /** Adding restaurants to a user drops each new restaurant that already
      employs someone else with the in-memory user's full name, and keeps
      the rest. */
  lemma AddRestaurantsExactly(s: Store, u: Id, person: User, rs: set<Id>, order: seq<Id>)
    requires u in s.users && rs <= s.restaurants.Keys
    requires Enumerates(order, rs - EmployersOf(s, u))
    ensures forall r | r in rs && r !in EmployersOf(s, u) ::
      (r, u) in AddRestaurantsToUser(s, u, person, rs, order).employs <==>
      !exists v | v in Employees(s, r) :: v != u && v in s.users && SameName(s.users[v], person)
  {
    var s1 := s.(employs := s.employs + set r | r in rs :: (r, u));
    LeaveExactly(s1, u, person, order);
    forall r, v | r in rs && v != u
      ensures v in Employees(s1, r) <==> v in Employees(s, r)
    {
      if v in Employees(s1, r) {
        assert (r, v) in s.employs;
      }
    }
  }

  /** Adding restaurants to a user whose in-memory full name is the stored
      one keeps full names distinct among co-workers.  (The handler checks
      the in-memory name, so an unsaved rename lets the stored name
      collide.) */
  lemma AddRestaurantsKeepsNamesDistinct(s: Store, u: Id, person: User, rs: set<Id>, order: seq<Id>)
    requires u in s.users && rs <= s.restaurants.Keys
    requires Enumerates(order, rs - EmployersOf(s, u))
    requires DistinctCoworkerNames(s)
    requires SameName(person, s.users[u])
    ensures DistinctCoworkerNames(AddRestaurantsToUser(s, u, person, rs, order))
  {
    var s1 := s.(employs := s.employs + set r | r in rs :: (r, u));
    var s' := AddRestaurantsToUser(s, u, person, rs, order);
    LeaveExactly(s1, u, person, order);
    forall p, q | p in s'.employs && q in s'.employs && p.0 == q.0 && p.1 != q.1
                  && p.1 in s'.users && q.1 in s'.users
      ensures !SameName(s'.users[p.1], s'.users[q.1])
    {
      if p !in s.employs {
        assert p.1 == u && p.0 in order && q.1 in Employees(s1, p.0);
      } else if q !in s.employs {
        assert q.1 == u && q.0 in order && p.1 in Employees(s1, q.0);
      }
    }
  }
}

=== FILE: tables.dfy ===
/** The table hierarchy: tables merged under a container table form a
    forest; a table's display number is its root's number, and a root
    table seats everyone at the tables merged into it. */
module Tables {
  import opened Errors
  import opened Models

  /** Some ranking that witnesses the forest (used only to measure
      recursion up the container chain). */
  ghost function Rank(tables: map<Id, Table>): (rank: map<Id, nat>)
    requires IsForest(tables)
    ensures Ranks(tables, rank)
  {
    var rank :| Ranks(tables, rank); rank
  }

  /** Table.true_number: follow the container chain to its root. */
  function TrueNumber(tables: map<Id, Table>, t: Id): int
    requires IsForest(tables) && t in tables
    decreases Rank(tables)[t]
  {
    match tables[t].container
    case None => tables[t].number
    case Some(c) => TrueNumber(tables, c)
  }

  /** The strict ancestors of t: its container, that table's container, and
      so on.  All of them rank below t, so t is never its own ancestor. */
  function Ancestors(tables: map<Id, Table>, t: Id): (r: set<Id>)
    requires IsForest(tables) && t in tables
    ensures forall a | a in r :: a in tables && Rank(tables)[a] < Rank(tables)[t]
    decreases Rank(tables)[t]
  {
    match tables[t].container
    case None => {}
    case Some(c) => {c} + Ancestors(tables, c)
  }

  /** x is a strict, transitive sub-table of t. */
  predicate IsSubTableOf(tables: map<Id, Table>, x: Id, t: Id)
    requires IsForest(tables)
  {
    x in tables && t in Ancestors(tables, x)
  }

  /** The direct sub-tables of t (the reverse side of container_table). */
  function SubTables(tables: map<Id, Table>, t: Id): set<Id>
  {
    set x | x in tables && tables[x].container == Some(t)
  }

  /** check_container_table_not_in_sub_tables from Table.clean: false as soon
      as c is a direct sub-table of t or of any table below t. */
  function CheckContainerNotInSubTables(tables: map<Id, Table>, t: Id, c: Id): bool
    requires IsForest(tables) && t in tables
    decreases tables.Keys - Ancestors(tables, t)
  {
    var subs := SubTables(tables, t);
    if subs == {} then true
    else if c in subs then false
    else forall x | x in subs :: CheckContainerNotInSubTables(tables, x, c)
  }

  /** Table.clean.  The three rules raise in order, so at most one error is
      reported, always on container_table and without a code: the dict form of each
      raise drops the code "invalid" passed with it.  The
      sub-table check only runs for a table already in the store. */
  function TableClean(tables: map<Id, Table>, t: Id, rec: Table): (errs: seq<Violation>)
    requires IsForest(tables)
    ensures |errs| <= 1
    ensures forall i | 0 <= i < |errs| :: errs[i].field == "container_table" && errs[i].code == NoCode
    ensures forall i | 0 <= i < |errs| :: errs[i].rule in {SelfContainer, ContainerElsewhere, ContainerIsSubTable}
  {
    match rec.container
    case None => []
    case Some(c) =>
      if c == t then [Violation("container_table", NoCode, SelfContainer)]
      else if c in tables && tables[c].restaurant != rec.restaurant then
        [Violation("container_table", NoCode, ContainerElsewhere)]
      else if t in tables && !CheckContainerNotInSubTables(tables, t, c) then
        [Violation("container_table", NoCode, ContainerIsSubTable)]
      else []
  }

  /** A child's ancestors are its container and the container's ancestors. */
  lemma ChildAncestors(tables: map<Id, Table>, t: Id, x: Id)
    requires IsForest(tables) && x in SubTables(tables, t)
    ensures t in tables && Ancestors(tables, x) == {t} + Ancestors(tables, t)
    ensures t !in Ancestors(tables, t)
  {
  }

  /** Being an ancestor is transitive. */
  lemma {:induction false} AncestorsTransitive(tables: map<Id, Table>, c: Id, x: Id)
    requires IsForest(tables) && c in tables && x in Ancestors(tables, c)
    ensures Ancestors(tables, x) <= Ancestors(tables, c)
    decreases Rank(tables)[c]
  {
    var p := tables[c].container.value;
    if x != p {
      AncestorsTransitive(tables, p, x);
    }
  }

  /** Below an ancestor t of c, some direct sub-table of t lies on the
      path from c up to t. */
  lemma {:induction false} PathChild(tables: map<Id, Table>, t: Id, c: Id) returns (x: Id)
    requires IsForest(tables) && c in tables && t in Ancestors(tables, c)
    ensures x in SubTables(tables, t)
    ensures x == c || IsSubTableOf(tables, c, x)
    decreases Rank(tables)[c]
  {
    var p := tables[c].container.value;
    if p == t {
      x := c;
    } else {
      x := PathChild(tables, t, p);
    }
  }

  /** The recursive check answers false exactly when the proposed container
      c is a strict, transitive sub-table of t. */
  lemma {:induction false} CheckMeansNotSubTable(tables: map<Id, Table>, t: Id, c: Id)
    requires IsForest(tables) && t in tables
    ensures !CheckContainerNotInSubTables(tables, t, c) <==> IsSubTableOf(tables, c, t)
    decreases tables.Keys - Ancestors(tables, t)
  {
    var subs := SubTables(tables, t);
    if IsSubTableOf(tables, c, t) {
      var x := PathChild(tables, t, c);
      assert x in subs;
      if c !in subs {
        assert x != c;
        CheckMeansNotSubTable(tables, x, c);
      }
    }
    if !CheckContainerNotInSubTables(tables, t, c) {
      if c !in subs {
        var x :| x in subs && !CheckContainerNotInSubTables(tables, x, c);
        CheckMeansNotSubTable(tables, x, c);
        ChildAncestors(tables, t, x);
        AncestorsTransitive(tables, c, x);
      }
    }
  }

  /** Table.clean rejects exactly the three cases it names: the table
      itself, a table at another restaurant, or one of its own
      (transitive) sub-tables as container. */
  lemma TableCleanRejects(tables: map<Id, Table>, t: Id, rec: Table)
    requires IsForest(tables)
    ensures TableClean(tables, t, rec) != [] <==>
      && rec.container.Some?
      && var c := rec.container.value;
         || c == t
         || (c in tables && tables[c].restaurant != rec.restaurant)
         || IsSubTableOf(tables, c, t)
  {
    if rec.container.Some? && t in tables {
      CheckMeansNotSubTable(tables, t, rec.container.value);
    }
  }

  /** Assigning a container that Table.clean accepts keeps the container
      relation a forest, whether t is a new or an existing table. */
  lemma AcceptedContainerKeepsForest(tables: map<Id, Table>, t: Id, rec: Table)
    requires IsForest(tables)
    requires rec.container.Some? ==> rec.container.value in tables
    requires TableClean(tables, t, rec) == []
    ensures IsForest(tables[t := rec])
  {
    var nt := tables[t := rec];
    var r := Rank(tables);
    if rec.container.None? || t !in tables {
      var top := if rec.container.Some? then r[rec.container.value] + 1 else 0;
      var r2 := if t in tables then r else r[t := top];
      assert Ranks(nt, r2);
    } else {
      var c := rec.container.value;
      CheckMeansNotSubTable(tables, t, c);
      assert !IsSubTableOf(tables, c, t);
      var k := r[c] + 1;
      var r2 := map x | x in r ::
        if x in tables && (x == t || t in Ancestors(tables, x)) then r[x] + k else r[x];
      forall x | x in nt && nt[x].container.Some?
        ensures nt[x].container.value in r2 && r2[nt[x].container.value] < r2[x]
      {
        if x != t {
          var y := nt[x].container.value;
          assert x in SubTables(tables, y);
          ChildAncestors(tables, y, x);
        }
      }
      assert Ranks(nt, r2);
    }
  }

  /** Every table has exactly one root among itself and its ancestors, and
      its true number is that root's number. */
  lemma {:induction false} TrueNumberIsRootNumber(tables: map<Id, Table>, t: Id) returns (root: Id)
    requires IsForest(tables) && t in tables
    ensures root == t || root in Ancestors(tables, t)
    ensures tables[root].container.None?
    ensures TrueNumber(tables, t) == tables[root].number
    ensures forall r | (r == t || r in Ancestors(tables, t)) && tables[r].container.None? :: r == root
    decreases Rank(tables)[t]
  {
    match tables[t].container {
      case None =>
        root := t;
      case Some(c) =>
        root := TrueNumberIsRootNumber(tables, c);
    }
  }

  /** The seats that stand at table t itself (the _seats relation). */
  function OwnSeats(seats: map<Id, Seat>, t: Id): set<Id>
  {
    set x | x in seats && seats[x].table == t
  }

  /** SeatManager.get_sub_table_seats: t's own seats together with the
      sub-table seats of each of its direct sub-tables. */
  function SubTableSeats(tables: map<Id, Table>, seats: map<Id, Seat>, t: Id): set<Id>
    requires IsForest(tables) && t in tables
    decreases tables.Keys - Ancestors(tables, t)
  {
    OwnSeats(seats, t)
      + (set x, y | x in SubTables(tables, t) && y in SubTableSeats(tables, seats, x) :: y)
  }

  /** The seats standing at t or at any table merged below it. */
  function SubtreeSeats(tables: map<Id, Table>, seats: map<Id, Seat>, t: Id): set<Id>
    requires IsForest(tables)
  {
    set y | y in seats && seats[y].table in tables
              && (seats[y].table == t || IsSubTableOf(tables, seats[y].table, t))
  }

  /** The recursive collection gathers exactly the seats of the subtree. */
  lemma {:induction false} SubTableSeatsAreSubtreeSeats(tables: map<Id, Table>, seats: map<Id, Seat>, t: Id)
    requires IsForest(tables) && t in tables
    ensures SubTableSeats(tables, seats, t) == SubtreeSeats(tables, seats, t)
    decreases tables.Keys - Ancestors(tables, t)
  {
    var subs := SubTables(tables, t);
    forall x | x in subs
      ensures SubTableSeats(tables, seats, x) == SubtreeSeats(tables, seats, x)
    {
      SubTableSeatsAreSubtreeSeats(tables, seats, x);
    }
    forall y | y in SubTableSeats(tables, seats, t)
      ensures y in SubtreeSeats(tables, seats, t)
    {
      if y !in OwnSeats(seats, t) {
        var x :| x in subs && y in SubTableSeats(tables, seats, x);
        var table := seats[y].table;
        ChildAncestors(tables, t, x);
        if table != x {
          AncestorsTransitive(tables, table, x);
        }
      }
    }
    forall y | y in SubtreeSeats(tables, seats, t)
      ensures y in SubTableSeats(tables, seats, t)
    {
      var table := seats[y].table;
      if table != t {
        var x := PathChild(tables, t, table);
        assert y in SubtreeSeats(tables, seats, x);
      }
    }
  }

  /** Table.seats: a root table seats its whole subtree, a sub-table only
      its own seats. */
  function EffectiveSeats(tables: map<Id, Table>, seats: map<Id, Seat>, t: Id): set<Id>
    requires IsForest(tables) && t in tables
  {
    if tables[t].container.None? then SubTableSeats(tables, seats, t) else OwnSeats(seats, t)
  }

  /** A seat is among t's effective seats exactly when it stands at t, or t
      is a root and the seat stands at a table merged (transitively) into
      t. */
  lemma EffectiveSeatsCharacterised(tables: map<Id, Table>, seats: map<Id, Seat>, t: Id, y: Id)
    requires IsForest(tables) && t in tables
    ensures y in EffectiveSeats(tables, seats, t) <==>
      && y in seats
      && (|| seats[y].table == t
          || (&& tables[t].container.None?
              && seats[y].table in tables
              && IsSubTableOf(tables, seats[y].table, t)))
  {
    SubTableSeatsAreSubtreeSeats(tables, seats, t);
  }
}

=== FILE: test_strings.dfy ===
/** The string helper the test suite uses to build over-length names:
    duplicate_string_to_size repeats a string up to a length and can tidy
    the result so that it still reads like a name. */
module TestStrings {

  /** Python's str.isspace: the characters str.strip() removes. */
  predicate IsWhitespace(c: char)
  {
    || ('\U{9}' <= c <= '\U{D}')
    || ('\U{1C}' <= c <= '\U{1F}')
    || c == ' '
    || c == '\U{85}'
    || c == '\U{A0}'
    || c == '\U{1680}'
    || ('\U{2000}' <= c <= '\U{200A}')
    || c == '\U{2028}'
    || c == '\U{2029}'
    || c == '\U{202F}'
    || c == '\U{205F}'
    || c == '\U{3000}'
  }

  /** The suffixes the helper refuses to end on: space, ' and -. */
  predicate IsNameSeparator(c: char)
  {
    c == ' ' || c == '\'' || c == '-'
  }

  lemma MulNonneg(a: int, b: int)
    requires a >= 0 && b >= 0
    ensures a * b >= 0
  {}

  lemma Distribute(a: int, b: int, n: int)
    ensures a * n - b * n == (a - b) * n
  {}

  /** Euclidean division has one remainder: x == q * n + r with 0 <= r < n
      forces x % n == r. */
  lemma ModUnique(x: int, n: int, q: int, r: int)
    requires n > 0 && 0 <= r < n && x == q * n + r
    ensures x % n == r
  {
    var q', r' := x / n, x % n;
    assert x == q' * n + r';
    Distribute(q, q', n);
    var d := q - q';
    assert d * n == r' - r;
    if d >= 1 {
      Distribute(d, 1, n);
      MulNonneg(d - 1, n);
      assert false;
    } else if d <= -1 {
      Distribute(-d, 1, n);
      Distribute(0, d, n);
      MulNonneg(-d - 1, n);
      assert false;
    }
  }

  /** s repeated k times (Python's s * k). */
  function Repeat(s: string, k: nat): (r: string)
    ensures |r| == k * |s|
  {
    if k == 0 then [] else Repeat(s, k - 1) + s
  }

  lemma {:induction false} RepeatIndex(s: string, k: nat, i: nat)
    requires |s| > 0 && i < k * |s|
    ensures Repeat(s, k)[i] == s[i % |s|]
  {
    var prev := Repeat(s, k - 1);
    assert Repeat(s, k) == prev + s;
    if i < |prev| {
      RepeatIndex(s, k - 1, i);
    } else {
      ModUnique(i, |s|, k - 1, i - |prev|);
    }
  }

  /** The first branch pair of duplicate_string_to_size: cut s to size, or
      repeat it size // len(s) times and top up with a prefix of s. */
  function Fill(s: string, size: nat): (r: string)
    requires |s| > 0 || size == 0
  {
    if |s| >= size then s[..size]
    else
      var partial := Repeat(s, size / |s|);
      partial + s[..size - |partial|]
  }

  /** Filling is cyclic indexing into s; in particular a long enough s is
      simply cut to its length-size prefix. */
  lemma FillIndex(s: string, size: nat)
    requires |s| > 0 || size == 0
    ensures |Fill(s, size)| == size
    ensures forall i | 0 <= i < size :: Fill(s, size)[i] == s[i % |s|]
    ensures |s| >= size ==> Fill(s, size) == s[..size]
  {
    var r := Fill(s, size);
    if |s| < size {
      var k := size / |s|;
      var partial := Repeat(s, k);
      assert |partial| == k * |s|;
      assert size - |partial| == size % |s|;
      forall i | 0 <= i < size
        ensures r[i] == s[i % |s|]
      {
        if i < |partial| {
          RepeatIndex(s, k, i);
        } else {
          ModUnique(i, |s|, k, i - |partial|);
        }
      }
    } else {
      forall i | 0 <= i < size
        ensures r[i] == s[i % |s|]
      {
        ModUnique(i, |s|, 0, i);
      }
    }
  }

  /** str.lstrip(): drop leading whitespace. */
  function LeftStrip(s: string): (r: string)
    ensures |r| <= |s| && r == s[|s| - |r|..]
    ensures forall i | 0 <= i < |s| - |r| :: IsWhitespace(s[i])
    ensures r != [] ==> !IsWhitespace(r[0])
  {
    if |s| > 0 && IsWhitespace(s[0]) then LeftStrip(s[1..]) else s
  }

  /** str.rstrip(): drop trailing whitespace. */
  function RightStrip(s: string): (r: string)
    ensures |r| <= |s| && r == s[..|r|]
    ensures forall i | |r| <= i < |s| :: IsWhitespace(s[i])
    ensures r != [] ==> !IsWhitespace(r[|r| - 1])
  {
    if |s| > 0 && IsWhitespace(s[|s| - 1]) then RightStrip(s[..|s| - 1]) else s
  }

  /** str.strip(): the result is s itself exactly when s neither starts nor
      ends with whitespace, and it is empty exactly when s is all
      whitespace. */
  function Strip(s: string): (r: string)
    ensures r != [] ==> !IsWhitespace(r[0]) && !IsWhitespace(r[|r| - 1])
    ensures r == s <==> (s == [] || (!IsWhitespace(s[0]) && !IsWhitespace(s[|s| - 1])))
    ensures r == [] <==> forall i | 0 <= i < |s| :: IsWhitespace(s[i])
  {
    var left := LeftStrip(s);
    var r := RightStrip(left);
    StripEnds(s, left, r);
    StripUnchanged(s, left, r);
    StripEmpty(s, left, r);
    r
  }

  lemma StripEnds(s: string, left: string, r: string)
    requires left == LeftStrip(s) && r == RightStrip(left)
    ensures r != [] ==> !IsWhitespace(r[0]) && !IsWhitespace(r[|r| - 1])
  {
    if r != [] {
      assert left != [] && r[0] == left[0];
    }
  }

  lemma StripUnchanged(s: string, left: string, r: string)
    requires left == LeftStrip(s) && r == RightStrip(left)
    ensures r == s <==> (s == [] || (!IsWhitespace(s[0]) && !IsWhitespace(s[|s| - 1])))
  {
    if r == s && s != [] {
      assert r[0] == left[0];
    }
    if s != [] && !IsWhitespace(s[0]) && !IsWhitespace(s[|s| - 1]) {
      assert |left| == |s|;
      assert left == s;
      assert |r| == |left|;
    }
  }

  lemma StripEmpty(s: string, left: string, r: string)
    requires left == LeftStrip(s) && r == RightStrip(left)
    ensures r == [] <==> forall i | 0 <= i < |s| :: IsWhitespace(s[i])
  {
    var k := |s| - |left|;
    if r == [] {
      forall i | 0 <= i < |s|
        ensures IsWhitespace(s[i])
      {
        if i >= k {
          assert s[i] == left[i - k];
        }
      }
    } else {
      assert r[0] == left[0] == s[k];
    }
  }

  /** Some character of the cut s[:size] is not whitespace. */
  predicate CutHasVisible(s: string, size: nat)
  {
    exists i | 0 <= i < size && i < |s| :: !IsWhitespace(s[i])
  }

  /** Stripping the cut leaves something exactly when the cut has a visible
      character; otherwise the source divides by zero. */
  lemma CutVisible(s: string, size: nat)
    requires |s| > 0 || size == 0
    ensures Strip(Fill(s, size)) != [] <==> CutHasVisible(s, size)
  {
    var short := Fill(s, size);
    FillIndex(s, size);
    if CutHasVisible(s, size) {
      var i :| 0 <= i < size && i < |s| && !IsWhitespace(s[i]);
      ModUnique(i, |s|, 0, i);
      assert !IsWhitespace(short[i]);
    }
    if Strip(short) != [] {
      var i :| 0 <= i < |short| && !IsWhitespace(short[i]);
      if i < |s| {
        ModUnique(i, |s|, 0, i);
      }
      assert !IsWhitespace(s[i % |s|]);
    }
  }

  /** The string that strip=True fills from: s itself when cutting it to
      size left no surrounding whitespace, the stripped cut otherwise. */
  function StripBase(s: string, size: nat): (base: string)
    requires |s| > 0 || size == 0
    ensures size > 0 && CutHasVisible(s, size) ==> base != []
  {
    CutVisible(s, size);
    var short := Fill(s, size);
    if Strip(short) == short then s else Strip(short)
  }

  /** The strip=True rebuild: the cut itself, or the stripped cut filled
      back up to size. */
  function Rebuilt(s: string, size: nat): (r: string)
    requires |s| > 0 || size == 0
    requires size > 0 ==> Strip(Fill(s, size)) != []
    ensures |r| == size
  {
    FillIndex(s, size);
    var short := Fill(s, size);
    var stripped := Strip(short);
    if stripped != short then FillIndex(stripped, size); Fill(stripped, size) else short
  }

  /** Replaces a trailing space, ' or - by the first character. */
  function FixEnding(t: string): (r: string)
    ensures |r| == |t|
  {
    if |t| > 0 && IsNameSeparator(t[|t| - 1]) then t[..|t| - 1] + [t[0]] else t
  }

  /** duplicate_string_to_size.  An empty string (or, with strip, a cut that
      is all whitespace) would divide by zero in the source for size > 0, so
      those inputs are excluded. */
  function DuplicateStringToSize(s: string, size: nat, strip: bool): (r: string)
    requires |s| > 0 || size == 0
    requires strip && size > 0 ==> CutHasVisible(s, size)
    ensures |r| == size
    ensures !strip ==> forall i | 0 <= i < size :: r[i] == s[i % |s|]
    ensures strip && size > 0 ==> !IsWhitespace(r[0])
  {
    FillIndex(s, size);
    if !strip then Fill(s, size)
    else
      CutVisible(s, size);
      RebuiltStartsClean(s, size);
      FixEnding(Rebuilt(s, size))
  }

  lemma FillFirst(s: string, size: nat)
    requires |s| > 0 && size > 0
    ensures Fill(s, size)[0] == s[0]
  {
    FillIndex(s, size);
    ModUnique(0, |s|, 0, 0);
  }

  lemma RebuiltStartsClean(s: string, size: nat)
    requires |s| > 0 || size == 0
    requires size > 0 ==> Strip(Fill(s, size)) != []
    ensures size > 0 ==> !IsWhitespace(Rebuilt(s, size)[0])
    ensures size > 0 ==> !IsWhitespace(FixEnding(Rebuilt(s, size))[0])
  {
    if size > 0 {
      var short := Fill(s, size);
      var stripped := Strip(short);
      if stripped != short {
        FillFirst(stripped, size);
        assert Rebuilt(s, size)[0] == stripped[0];
      } else {
        assert Rebuilt(s, size) == short;
      }
      var rb := Rebuilt(s, size);
      assert FixEnding(rb)[0] == rb[0];
    }
  }

  /** The rebuild cycles through StripBase. */
  lemma RebuiltCycles(s: string, size: nat)
    requires |s| > 0 && size > 0
    requires Strip(Fill(s, size)) != []
    ensures forall i | 0 <= i < size ::
      Rebuilt(s, size)[i] == StripBase(s, size)[i % |StripBase(s, size)|]
  {
    var short := Fill(s, size);
    var stripped := Strip(short);
    FillIndex(s, size);
    if stripped != short {
      FillIndex(stripped, size);
    }
  }

  /** The ending fix keeps the rebuild's cycle through StripBase except at
      the last character. */
  lemma FixedRebuildCycles(s: string, size: nat)
    requires |s| > 0 && size > 0
    requires Strip(Fill(s, size)) != []
    ensures var r := FixEnding(Rebuilt(s, size));
            var base := StripBase(s, size);
            var last := base[(size - 1) % |base|];
            && (forall i | 0 <= i < size - 1 :: r[i] == base[i % |base|])
            && r[size - 1] == (if IsNameSeparator(last) then base[0] else last)
  {
    var base := StripBase(s, size);
    var rebuilt := Rebuilt(s, size);
    var r := FixEnding(rebuilt);
    RebuiltCycles(s, size);
    ModUnique(0, |base|, 0, 0);
    assert rebuilt[0] == base[0];
    assert forall i | 0 <= i < size - 1 :: r[i] == rebuilt[i];
    assert r[size - 1] == if IsNameSeparator(rebuilt[size - 1]) then rebuilt[0] else rebuilt[size - 1];
  }

  /** With strip=True the result cycles through StripBase up to its last
      character, and a trailing space, ' or - is replaced by the first
      character. */
  lemma DuplicateWithStrip(s: string, size: nat)
    requires |s| > 0 && size > 0
    requires CutHasVisible(s, size)
    ensures var r := DuplicateStringToSize(s, size, true);
            var base := StripBase(s, size);
            var last := base[(size - 1) % |base|];
            && (forall i | 0 <= i < size - 1 :: r[i] == base[i % |base|])
            && r[size - 1] == (if IsNameSeparator(last) then base[0] else last)
  {
    CutVisible(s, size);
    FixedRebuildCycles(s, size);
    assert DuplicateStringToSize(s, size, true) == FixEnding(Rebuilt(s, size));
  }
}

=== FILE: validators.dfy ===
/** The field validators of the core: the name pattern shared by restaurant
    and menu-item names, the employee-id rules and the person-name limits. */
module Validators {
  import opened Errors

  /** Characters the name pattern treats as separators: \s, ' and -.  Only
      the space among the whitespace characters can occur in a name, since
      the character class admits no other. */
  predicate IsSeparator(c: char)
  {
    c == ' ' || c == '\'' || c == '-'
  }

  predicate IsAsciiLetter(c: char)
  {
    ('A' <= c <= 'Z') || ('a' <= c <= 'z')
  }

  /** The character class [A-Za-z '-]. */
  predicate IsNameChar(c: char)
  {
    IsAsciiLetter(c) || IsSeparator(c)
  }

  /** The name regular expression, stated clause by clause: at least one
      character of the class, no leading separator, no trailing separator,
      no two separators in a row. */
  predicate MatchesNamePattern(s: string)
  {
    && |s| >= 1
    && (forall i | 0 <= i < |s| :: IsNameChar(s[i]))
    && !IsSeparator(s[0])
    && !IsSeparator(s[|s| - 1])
    && (forall i | 0 <= i < |s| - 1 :: !(IsSeparator(s[i]) && IsSeparator(s[i + 1])))
  }

  const NameMinLength: nat := 2
  const NameMaxLength: nat := 100

  /** A restaurant or menu-item name the model accepts. */
  predicate IsValidName(s: string)
  {
    NameMinLength <= |s| <= NameMaxLength && MatchesNamePattern(s)
  }

  /** An independent decision procedure for the name pattern: one
      left-to-right pass with a single bit of state, the automaton the
      regular expression denotes.  Proving it equivalent to the
      clause-by-clause reading in MatchesNamePattern cross-checks that
      reading; RegexValidator itself does the matching in the source. */
  method ScanNamePattern(s: string) returns (ok: bool)
    ensures ok <==> MatchesNamePattern(s)
  {
    if |s| == 0 || IsSeparator(s[0]) || IsSeparator(s[|s| - 1]) {
      return false;
    }
    var i := 0;
    var previousSeparator := false;
    while i < |s|
      invariant 0 <= i <= |s|
      invariant forall k | 0 <= k < i :: IsNameChar(s[k])
      invariant forall k | 0 <= k < i - 1 :: !(IsSeparator(s[k]) && IsSeparator(s[k + 1]))
      invariant i > 0 ==> previousSeparator == IsSeparator(s[i - 1])
    {
      var c := s[i];
      if !IsNameChar(c) || (previousSeparator && IsSeparator(c)) {
        return false;
      }
      previousSeparator := IsSeparator(c);
      i := i + 1;
    }
    return true;
  }

  /** The errors CharField.clean reports for a name field: a blank value
      stops at the required check; otherwise the pattern, minimum-length and
      maximum-length validators each add their error. */
  function NameErrors(field: string, s: string): (errs: seq<Violation>)
    ensures errs == [] <==> IsValidName(s)
    ensures forall i | 0 <= i < |errs| :: errs[i].field == field
    ensures |s| > NameMaxLength ==> Raises(errs, TooLong)
  {
    if s == "" then [Violation(field, Blank, Required)]
    else
      var pattern := if MatchesNamePattern(s) then [] else [Violation(field, Invalid, Pattern)];
      var short := if |s| < NameMinLength then [Violation(field, MinLength, TooShort)] else [];
      var long := if |s| > NameMaxLength then [Violation(field, MaxLength, TooLong)] else [];
      var all := pattern + short + long;
      assert |s| > NameMaxLength ==> all[|all| - 1].rule == TooLong;
      all
  }

  /** \d of the employee-id pattern, restricted to the ASCII digits. */
  predicate IsDigit(c: char)
  {
    '0' <= c <= '9'
  }

  const EmployeeIdLength: nat := 6

  /** An employee id the validators accept: exactly six digits. */
  predicate IsValidEmployeeId(s: string)
  {
    |s| == EmployeeIdLength && forall i | 0 <= i < |s| :: IsDigit(s[i])
  }

  /** The errors clean_fields reports for employee_id.  The field is
      blank-able, so the empty string skips every validator (User.clean then
      fills it in); otherwise the pattern, minimum- and maximum-length
      validators each add their error. */
  function EmployeeIdErrors(s: string): (errs: seq<Violation>)
    ensures s != "" ==> (errs == [] <==> IsValidEmployeeId(s))
    ensures s == "" ==> errs == []
    ensures forall i | 0 <= i < |errs| :: errs[i].field == "employee_id"
  {
    if s == "" then []
    else
      (if forall i | 0 <= i < |s| :: IsDigit(s[i]) then [] else [Violation("employee_id", Invalid, Pattern)])
      + (if |s| < EmployeeIdLength then [Violation("employee_id", MinLength, TooShort)] else [])
      + (if |s| > EmployeeIdLength then [Violation("employee_id", MaxLength, TooLong)] else [])
  }

  const PersonNameMaxLength: nat := 75

  /** The errors clean_fields reports for first_name or last_name: required,
      at most 75 characters. */
  function PersonNameErrors(field: string, s: string): (errs: seq<Violation>)
    ensures errs == [] <==> 1 <= |s| <= PersonNameMaxLength
    ensures forall i | 0 <= i < |errs| :: errs[i].field == field
  {
    if s == "" then [Violation(field, Blank, Required)]
    else if |s| > PersonNameMaxLength then [Violation(field, MaxLength, TooLong)]
    else []
  }

  /** The largest value Django 4.2 (the version the project is generated
      with) lets a PositiveIntegerField hold: the backend's integer range
      for that field, which the SQLite backend of that version inherits
      unchanged, 2^31 - 1. */
  const MaxPositiveInteger: int := 0x7FFF_FFFF

  /** The errors clean_fields reports for a PositiveIntegerField whose own
      MinValueValidator(minimum) replaces the built-in lower bound; the
      backend's upper bound is still attached. */
  function PositiveIntegerErrors(field: string, v: int, minimum: int): (errs: seq<Violation>)
    ensures errs == [] <==> minimum <= v <= MaxPositiveInteger
    ensures forall i | 0 <= i < |errs| :: errs[i].field == field
    ensures forall i | 0 <= i < |errs| :: errs[i].rule in {BelowMinimum, AboveMaximum}
  {
    (if v < minimum then [Violation(field, MinValue, BelowMinimum)] else [])
    + (if v > MaxPositiveInteger then [Violation(field, MaxValue, AboveMaximum)] else [])
  }
}
